=== FILE: README.md ===
# Terminal trading bot: ledger, chart pipeline, cache and key handling

This project is a Dafny model of the pure parts of `Bot_trading_BN_2.32P.py`, a
curses terminal client for a crypto exchange. The bot keeps a simulated balance
and a list of simulated limit orders, and draws candlestick charts as text.

The model covers these parts:

- **`Ledger`** (`ledger.dfy`): the simulated ledger. It covers the startup balance (1000 USDT plus a zero entry per base currency) and `place_limit_order`. It also covers editing, deleting and deleting all open orders.
- **`Ansi`** (`ansi.dfy`): `strip_ansi`, written as a left-to-right scan for `ESC [ [0-9;]* m`.
- **`Chart`** (`chart.dfy`): how a candle window becomes a tight y-range and six coloured segments per candle. It also covers how the rasteriser's captured lines are cleaned. Leading blank rows are dropped and axis-tick rows are filtered. The rows are then cropped or padded, a time row is appended, and every row is cut to `width + 4`. A plotting error collapses the chart to one `Plot error: ...` row. The axis-row filter belongs to the mini mode (`force_exact_ylim=False`); both callers in the program (lines 369 and 485) pass `force_exact_ylim=True`, so the program never runs it, and it is modelled for the builder's own sake.
- **`PlotCache`** (`plot_cache.dfy`): `build_plot_lines` with its cache. Entries are keyed by `(symbol, exact, height, width)`, live for 30 seconds, and record the last close.
- **`CandleWindow`** (`candles.dfy`): the suffix trims of the candle list, the timed refresh that keeps the previous window whenever a fetch returns nothing, and the `r` key's reload, which falls back to the candles on disk instead.
- **`OrderForm`** (`editor.dfy`): key handling for the trading screen's order form, the order editor and the options menu.
- **`Watchlist`** (`watchlist.dfy`): the symbols screen. This covers the cyclic selection, which clears the cache, the five-entry main menu, adding and deleting a coin, and opening the full-screen chart.
- **`Snapshot`** (`snapshot.dfy`): which fields `save_data` writes and which fields `load_data` takes back.
- **`Py`** (`py.dfy`): the Python semantics these parts rely on, stated once and shared by every module:
  - `str.strip()` over the `isspace` characters;
  - slices and indices with negative values;
  - `split('/')` unpacked into two names;
  - `list.remove`;
  - `%` on a list length.

Amounts are `real`. Everything outside the program is a parameter of the model:

| Parameter | Stands for |
|---|---|
| `now` | the clock |
| `fetched` | the fetched candles |
| `raster: PlotSpec -> Captured` | the plotting library's rasteriser |
| `fmt: int -> string` | the timestamp formatter |
| `parse: string -> Option<real>` | Python's `float(...)` |
| `show: real -> string` | Python's `str(float)` |

The model follows what the code does, also where its names, prompts or comments suggest otherwise:

- Adding a coin appends the name and creates no balance entry.
- Deleting a coin removes the first occurrence of the selected name. It leaves the selection index where it was, which can then lie past the end of the list.
- The axis-row test counts every character of the stripped row, spaces included, towards the 70% threshold.
- Padding rows are `width + 4` spaces, and every row is cut to `width + 4` characters but not padded out.
- The comments at lines 359, 713, 727 and 866 say the symbol's cached charts are invalidated there, and the same two pops follow every successful placement, every edit submission, every delete and every changed close (a placement that raises has already appended its order, and no pops follow it). Those calls pop 2-tuple keys that the cache never holds, so they change nothing (see Findings); the model keeps them as written. Adding or deleting a coin does not touch the cache at all.
- An edited order is placed on the currently selected symbol, not on the order's own symbol.

## Model

| member | source | states |
|---|---|---|
| Py.Strip | Bot_trading_BN_2.32P.py:200-202 | `strip()` gives the middle slice of the string between a whitespace prefix and a whitespace suffix, with no whitespace at either end of it, and nothing exactly when the string is all whitespace |
| Py.Last | Bot_trading_BN_2.32P.py:358 | `s[-k:]` is the suffix of the last `k` elements, or of all of them when there are fewer; `s[-0:]` is the whole list |
| Py.At | Bot_trading_BN_2.32P.py:849 | `s[i]` gives the element, counting from the end for negative `i`, and fails exactly when `i` is outside `-len..len` |
| Py.SplitPair | Bot_trading_BN_2.32P.py:796 | `base, quote = symbol.split('/')` succeeds exactly when the symbol holds one `/`; the parts rebuild the symbol and contain no `/` |
| Py.SplitPairOfJoined | Bot_trading_BN_2.32P.py:796 | splitting `base + "/" + quote` gives back `base` and `quote` |
| Py.RemoveFirst | Bot_trading_BN_2.32P.py:704-707 | `list.remove` with its error swallowed: the first equal element goes and the multiset loses one copy; if there is none, nothing changes |
| Py.RemoveFirstOfAppended | Bot_trading_BN_2.32P.py:844-853 | removing a new element just appended restores the list |
| Py.Mod | Bot_trading_BN_2.32P.py:816-819 | `i % len(list)` raises `ZeroDivisionError` on an empty list and otherwise lands in `0..len`, equal to `i` there |
| Py.ModUnique | Bot_trading_BN_2.32P.py:816-819 | the remainder is the unique `r` in `0..n` with `i = q*n + r`, as Python's floor remainder is for a positive divisor |
| Py.ModWraps | Bot_trading_BN_2.32P.py:763-766 | stepping back from the first entry wraps to the last, and forward from the last to the first |
| Py.ModStepsCancel | Bot_trading_BN_2.32P.py:629-632 | a cyclic step back then forward, or forward then back, returns to the same entry |
| Ledger.ZeroBases | Bot_trading_BN_2.32P.py:58-60 | the loop succeeds exactly when every symbol splits; it adds a zero entry per base and keeps the other entries |
| Ledger.InitialBalance | Bot_trading_BN_2.32P.py:57-60 | the startup balance has keys USDT plus every base; bases are 0 and USDT is 1000 unless it is also a base |
| Ledger.InitialBalanceOfThree | Bot_trading_BN_2.32P.py:55-60 | the default three-symbol watch list gives exactly `{USDT: 1000, b1: 0, b2: 0, b3: 0}` |
| Ledger.PlaceLimitOrder | Bot_trading_BN_2.32P.py:794-802 | the order is always appended; a symbol that does not split raises ValueError and a missing quote entry raises KeyError, with balances untouched; otherwise a buy or sell moves every currency by the order's delta, creating the base entry; any other side only appends |
| Ledger.Settle | Bot_trading_BN_2.32P.py:797-802 | the two balance writes add the base key and move each currency by the order's delta |
| Ledger.EditOrder | Bot_trading_BN_2.32P.py:702-712 | the first equal order is removed whatever happens next; when both numbers parse and a symbol is selected, exactly one order with the given side, the parsed amounts and the selected symbol is appended, even when its placement then fails; otherwise nothing is appended; on success balances move by its delta only, and any error leaves them as they were |
| Ledger.DeleteOrder | Bot_trading_BN_2.32P.py:722-729 | deleting removes the first equal order (none if absent), keeps the other orders in their order, and keeps the balances |
| Ledger.DeleteAll | Bot_trading_BN_2.32P.py:730-733 | delete-all empties the order list and keeps the balances |
| Ledger.BuyThenSellRestores | Bot_trading_BN_2.32P.py:794-802 | a buy then a sell of the same amount at the same price leaves every balance as it was and records both orders |
| Ledger.BuyThenSellExample | Bot_trading_BN_2.32P.py:794-802 | 1000/0, buy 1 at 100, gives 900/1; selling 0.5 at 200 then gives 1000/0.5 |
| Ledger.OverdraftAllowed | Bot_trading_BN_2.32P.py:797-799 | no sufficiency check: buying 2 at 600 from 1000 leaves the quote at -200 |
| Ledger.EditDoesNotRefund | Bot_trading_BN_2.32P.py:702-712 | editing a placed buy into the same buy charges it twice: 800 and 2 |
| Ledger.DeleteKeepsBalanceEffect | Bot_trading_BN_2.32P.py:722-729 | deleting a placed order restores the order multiset but keeps its balance effect |
| Ansi.ParamRun | Bot_trading_BN_2.32P.py:74 | the maximal run of `[0-9;]` characters at the front |
| Ansi.MatchAt | Bot_trading_BN_2.32P.py:74 | a match starts with ESC `[`, has only parameter characters inside and ends with `m`; conversely ESC `[`, the maximal parameter run and `m` at the front are always matched, with exactly that length; no match unless the text starts with ESC |
| Ansi.StripAnsi | Bot_trading_BN_2.32P.py:86-87 | the substitution never lengthens the text |
| Ansi.StripAnsiPlain | Bot_trading_BN_2.32P.py:86-87 | text with no ESC passes through unchanged |
| Ansi.StripAnsiSgr | Bot_trading_BN_2.32P.py:74 | one complete colour sequence at the front is deleted and nothing else is touched |
| Ansi.StripAnsiRender | Bot_trading_BN_2.32P.py:86-87 | stripping coloured text gives back exactly its plain runs |
| Ansi.StripAnsiNotIdempotent | Bot_trading_BN_2.32P.py:86-87 | a single pass can leave a sequence formed by a deletion: stripping twice differs from stripping once |
| Chart.CandleSegments | Bot_trading_BN_2.32P.py:273-287 | each candle gives six segments |
| Chart.Segments | Bot_trading_BN_2.32P.py:273-287 | the window gives six segments per candle, and the block for candle `i` is that candle's six, at x = `i` |
| Chart.SegmentAt | Bot_trading_BN_2.32P.py:273-287 | segment `6i+j` is segment `j` of candle `i` |
| Chart.SegmentColors | Bot_trading_BN_2.32P.py:276 | every segment is red exactly when its candle opened above its close |
| Chart.SegmentWithinCandle | Bot_trading_BN_2.32P.py:278-287 | every segment end of a well-formed candle lies between its low and its high |
| Chart.MinLow | Bot_trading_BN_2.32P.py:270 | `min(lows)` is at most every low and equals one of them |
| Chart.MaxHigh | Bot_trading_BN_2.32P.py:270 | `max(highs)` is at least every high and equals one of them |
| Chart.YLimits | Bot_trading_BN_2.32P.py:269-270 | no limits for an empty window, otherwise bounds attained by some low and some high and enclosing every candle |
| Chart.SegmentsWithinYLimits | Bot_trading_BN_2.32P.py:269-287 | every segment lies inside the y-limits |
| Chart.YLimitsTouched | Bot_trading_BN_2.32P.py:269-287 | both y-limits are touched by a segment end |
| Chart.YLimitsTight | Bot_trading_BN_2.32P.py:269-287 | the range is tight: everything is inside and both edges are touched |
| Chart.StripAll | Bot_trading_BN_2.32P.py:196-197 | every captured line is stripped of colour markup, one for one |
| Chart.DropLeadingBlank | Bot_trading_BN_2.32P.py:292-296 | what remains is a suffix, every dropped row is blank, and the first remaining row is not |
| Chart.RatioAboveSevenTenths | Bot_trading_BN_2.32P.py:205-206 | for a positive length, `count / len > 0.7` is `10 count > 7 len` |
| Chart.AxisTickLineIff | Bot_trading_BN_2.32P.py:198-206 | a row is an axis-tick row exactly when its stripped text is longer than 3 and more than 70% tick characters; blank rows never are |
| Chart.FilterAxis | Bot_trading_BN_2.32P.py:298-307 | exact mode keeps every row; mini mode keeps exactly the rows that are not axis-tick rows |
| Chart.FilterAxisAppend | Bot_trading_BN_2.32P.py:299-307 | the filter works row by row, so kept rows keep their order |
| Chart.CropOrPad | Bot_trading_BN_2.32P.py:309-313 | for height ≥ 1, exactly `height-1` rows: the first rows, then padding rows; otherwise Python's `rows[:height-1]` |
| Chart.Labels | Bot_trading_BN_2.32P.py:322-325 | one label per timestamp, in order |
| Chart.Timestamps | Bot_trading_BN_2.32P.py:266 | the candles' timestamps, in order |
| Chart.TimeRow | Bot_trading_BN_2.32P.py:315-330 | empty without candles, never longer than `width+4` |
| Chart.TimeRowOfWindow | Bot_trading_BN_2.32P.py:319-328 | the time row joins the labels of the last `n` candles |
| Chart.TruncateRows | Bot_trading_BN_2.32P.py:335 | each row is its own first `width+4` characters |
| Chart.PostprocessShape | Bot_trading_BN_2.32P.py:292-335 | for height ≥ 1, exactly `height` rows: the cleaned, filtered rows or padding, cut to `width+4`, then the time row over the last `height-1` candles |
| Chart.MiniModeDropsAxisRows | Bot_trading_BN_2.32P.py:298-307 | in mini mode (which no caller in the program selects) no axis-tick row survives |
| Chart.Plot | Bot_trading_BN_2.32P.py:240-287 | the plot is `width+1` by `height`, x ticks are hidden exactly in mini mode, the y-limits exist exactly for a non-empty window and enclose every candle, and candle `i` contributes its six segments at x = `i` |
| Chart.Postprocess | Bot_trading_BN_2.32P.py:292-335 | for height ≥ 1, exactly `height` rows, none longer than `width+4`, the last being the time row |
| Chart.ChartRows | Bot_trading_BN_2.32P.py:236-338 | a plotting error gives the single `Plot error: ...` row; otherwise exactly `height` rows of at most `width+4` characters |
| PlotCache.LastClose | Bot_trading_BN_2.32P.py:340 | no close for an empty window, otherwise the last candle's close |
| PlotCache.BuildPlotLines | Bot_trading_BN_2.32P.py:215-348 | a fresh entry under the 4-tuple key is returned with the cache untouched; otherwise the rows are rebuilt and stored alone under that key with `ts = now` and the last close (None without the plotting library); the plotting library's absence gives `plotext not installed`, and otherwise the rebuilt rows are the chart of the given window |
| PlotCache.Pop | Bot_trading_BN_2.32P.py:447-448 | `pop(key, None)` removes that key only |
| PlotCache.Clear | Bot_trading_BN_2.32P.py:815-820 | `clear()` leaves no entry |
| PlotCache.InvalidateSymbol | Bot_trading_BN_2.32P.py:550-551 | the corrected invalidation of the Findings row, not the as-written pops at these lines: dropping a symbol keeps exactly the entries of other symbols, unchanged |
| PlotCache.BuildKeepsWellKeyed | Bot_trading_BN_2.32P.py:221-234 | the builder only writes 4-tuple keys |
| PlotCache.PopPairsIsNoop | Bot_trading_BN_2.32P.py:560-562 | popping `(symbol, False)` and `(symbol, True)` changes nothing on such a cache |
| PlotCache.SecondCallHits | Bot_trading_BN_2.32P.py:220-225 | after a rebuild, a second build of the same key within 30 s returns the same rows whatever the candles |
| PlotCache.PopPairsLeavesStaleRows | Bot_trading_BN_2.32P.py:447-448 | after the as-written invalidation, a build one second later for other candles still returns the old rows |
| PlotCache.InvalidateSymbolForcesRebuild | Bot_trading_BN_2.32P.py:340-346 | after dropping a symbol, the next build renders the given window and stores it, other symbols untouched |
| PlotCache.ClearForcesRebuild | Bot_trading_BN_2.32P.py:816-820 | after `clear()`, the next build renders afresh |
| CandleWindow.Prefer | Bot_trading_BN_2.32P.py:442-446 | a non-empty fetch gives its last `k` candles, in order; an empty fetch keeps the fallback |
| CandleWindow.FullscreenSlice | Bot_trading_BN_2.32P.py:358 | the full-screen chart shows the last 16 candles at most, in order |
| CandleWindow.Refresh | Bot_trading_BN_2.32P.py:555-562 | an empty fetch keeps the window and asks for nothing; otherwise the window is the last `max(16, 16)` fetched candles, and invalidation is asked exactly when the newest close changed or there was none |
| CandleWindow.Tick | Bot_trading_BN_2.32P.py:553-563 | nothing happens before 30 s; after that the refresh runs and the clock restarts even on failure |
| CandleWindow.FailuresKeepWindow | Bot_trading_BN_2.32P.py:555-563 | any run of failed fetches keeps the window |
| CandleWindow.LatestFetchWins | Bot_trading_BN_2.32P.py:555-563 | after a run of refreshes the window is the trim of the latest non-empty fetch |
| CandleWindow.WindowStaysBounded | Bot_trading_BN_2.32P.py:557 | the window never grows past the window size |
| CandleWindow.FullscreenOfWindow | Bot_trading_BN_2.32P.py:358 | the full-screen trim of a refreshed window is the window itself |
| CandleWindow.Reload | Bot_trading_BN_2.32P.py:737-743 | a non-empty fetch gives the window a timed refresh gives; a failed fetch gives the candles loaded from disk |
| CandleWindow.ReloadBreaksBound | Bot_trading_BN_2.32P.py:737-743 | a window every refresh kept within 16 candles grows past 16 after one failed reload with more candles on disk, where a failed refresh would keep it |
| CandleWindow.RefreshTwiceSettles | Bot_trading_BN_2.32P.py:556-562 | refreshing again with the same fetch keeps the window and asks for no invalidation |
| OrderForm.SetEntry | Bot_trading_BN_2.32P.py:580-599 | only the named entry row's text changes |
| OrderForm.ClearEntries | Bot_trading_BN_2.32P.py:611 | all five texts are emptied and the cursor stays |
| OrderForm.TypeChar | Bot_trading_BN_2.32P.py:577-588 | `b`/`s` set the side on the type row only; a digit or `.` is appended to the selected entry row only |
| OrderForm.Erase | Bot_trading_BN_2.32P.py:589-599 | Backspace drops the last character of the selected row's text, if any |
| OrderForm.MoveUp | Bot_trading_BN_2.32P.py:567-571 | Up moves to the previous row, and on the type row to the previous order |
| OrderForm.MoveDown | Bot_trading_BN_2.32P.py:572-576 | Down moves to the next row, and on the submit row to the next order while there is one |
| OrderForm.Submit | Bot_trading_BN_2.32P.py:600-613 | without type, quantity and price only the status changes; otherwise the texts are emptied, a parse failure leaves the ledger alone, and a parsed order is appended exactly once with invalidation on success only |
| OrderForm.TradingStep | Bot_trading_BN_2.32P.py:567-748 | only Enter on the submit row touches the ledger; `c` opens the options only when an order is highlighted; `r`/`R` opens full screen; `q` leaves; Up, Down, Backspace and the typing keys act through `MoveUp`, `MoveDown`, `Erase` and `TypeChar` and stay on the screen |
| OrderForm.StartEdit | Bot_trading_BN_2.32P.py:634-642 | the editor opens on the order's side, amount and price text, empty TP/SL, type row |
| OrderForm.EditStep | Bot_trading_BN_2.32P.py:683-721 | the cursor moves over the six rows only; submitting runs the edit, empties the texts, always asks for invalidation and closes; `q` empties the texts and closes; Backspace and the typing keys act as on the trading screen and stay; the editor closes exactly on `q` or a filled submission |
| OrderForm.OptionsStep | Bot_trading_BN_2.32P.py:629-735 | Up/Down move to `(i - 1) % 4` and `(i + 1) % 4`; Enter edits, deletes one, deletes all or cancels; `q` closes; balances never change |
| OrderForm.TradingStepKeepsValid | Bot_trading_BN_2.32P.py:567-613 | the row stays in 0..5, the side in {"", "b", "s"} and the order index non-negative |
| OrderForm.SideChangesOnlyOnTypeRow | Bot_trading_BN_2.32P.py:577-611 | the side changes only on the type row, or when a submission empties it |
| OrderForm.TpSlIgnored | Bot_trading_BN_2.32P.py:602-604 | TP and SL never reach the ledger |
| OrderForm.TypeThenErase | Bot_trading_BN_2.32P.py:580-599 | typing a digit into an entry row then Backspace restores the form |
| OrderForm.ChooseSideThenErase | Bot_trading_BN_2.32P.py:577-591 | choosing a side then Backspace restores an empty type row |
| OrderForm.EditTypeThenErase | Bot_trading_BN_2.32P.py:687-699 | in the order editor, typing a digit or `.` into an entry row keeps the editor open, and Backspace then restores the form |
| OrderForm.EditorTypesLikeTradingScreen | Bot_trading_BN_2.32P.py:687-699 | Backspace, `b`/`s` and the entry characters change the editor's form exactly as they change the trading screen's, keeping both open and the ledger untouched |
| OrderForm.UpDownCancel | Bot_trading_BN_2.32P.py:567-576 | between the type and submit rows, Up and Down cancel |
| OrderForm.UpDownOnTypeRow | Bot_trading_BN_2.32P.py:567-576 | on the type row Up moves the order index and Down the row, so they do not cancel |
| OrderForm.SubmitAppendsOneOrder | Bot_trading_BN_2.32P.py:602-611 | a filled form that parses appends exactly its order even when placing fails, and the texts are emptied |
| OrderForm.ResubmitUnchanged | Bot_trading_BN_2.32P.py:634-712 | opening the editor and submitting at once removes the order and places an equal one at the end, charging it again |
| OrderForm.OptionsUpDownCancel | Bot_trading_BN_2.32P.py:629-632 | Up then Down returns the highlight |
| Watchlist.MoveSelection | Bot_trading_BN_2.32P.py:815-820 | the selection moves cyclically into range and the cache is emptied; an empty list raises ZeroDivisionError |
| Watchlist.AddSymbol | Bot_trading_BN_2.32P.py:844-847 | a non-empty name is appended; no balance entry; an empty name is ignored |
| Watchlist.DeleteSymbol | Bot_trading_BN_2.32P.py:848-854 | the first occurrence of the selected name goes (one copy fewer in the multiset); selection, balances and cache stay; a selection outside the list raises IndexError |
| Watchlist.MenuStep | Bot_trading_BN_2.32P.py:763-768 | Up/Down move to `(h - 1) % 5` and `(h + 1) % 5`; Enter chooses the highlighted entry, counting from the end for a negative index, and raises IndexError exactly when the index is out of range |
| Watchlist.NextHighlight | Bot_trading_BN_2.32P.py:763-766 | one key keeps an in-range highlight in range |
| Watchlist.MenuHighlightAppend | Bot_trading_BN_2.32P.py:750-771 | a run of keys is the first part followed by the rest |
| Watchlist.MenuNeverRaises | Bot_trading_BN_2.32P.py:750-771 | from an in-range highlight no run of keys makes the menu raise |
| Watchlist.OpenFullscreen | Bot_trading_BN_2.32P.py:357-369 | the fetched candles if any, else the loaded ones, trimmed to 16, are charted in exact mode at `max(6, rows-3)` by `max(20, cols-3)`; the cache gains that 4-tuple key (its fresh entry reused, otherwise rebuilt at `now`, with the chart's rows when plotting works) and loses the 2-tuple keys popped at line 360 and lines 867-868; every other entry stays |
| Watchlist.OpenFullscreenShowsLatest | Bot_trading_BN_2.32P.py:857-868 | the chart shows the last 16 fetched candles, or the last 16 loaded ones after a failed fetch; on a cache the builder filled, the pops do nothing, so the session ends as one exact-mode build leaves it |
| Watchlist.SelectUpDownCancel | Bot_trading_BN_2.32P.py:815-820 | Up then Down returns the selection, with the cache cleared |
| Watchlist.AddSelectDeleteRestores | Bot_trading_BN_2.32P.py:815-853 | adding a new coin, Up from the first entry (wrapping to it) and deleting restores the list and the ledger |
| Watchlist.DeleteLastLeavesSelectionPastEnd | Bot_trading_BN_2.32P.py:848-854 | deleting the selected last entry leaves the selection past the end, so a second delete raises IndexError |
| Watchlist.DeleteRemovesFirstOccurrence | Bot_trading_BN_2.32P.py:849-851 | with a duplicated name, deleting the later one removes the earlier one |
| Snapshot.SaveData | Bot_trading_BN_2.32P.py:113-119 | empty collections, an empty time stamp and a `None` result are left out; everything else is written |
| Snapshot.Pick | Bot_trading_BN_2.32P.py:100-105 | a field of the right type is taken, otherwise the current value stays |
| Snapshot.OrKeep | Bot_trading_BN_2.32P.py:106-108 | `data.get(key, current)` |
| Snapshot.LoadData | Bot_trading_BN_2.32P.py:92-111 | no file or a failed read leaves the state; otherwise symbols, balance and orders are taken when of the right type and kept otherwise, tickers are taken when present and emptied otherwise, and the result and time stamp are taken when present and kept otherwise |
| Snapshot.SaveLoadRoundTrip | Bot_trading_BN_2.32P.py:92-119 | save then load gives back the state exactly when each field saving omits is already empty or `None` in the session loaded into |
| Snapshot.EmptyListNotRestored | Bot_trading_BN_2.32P.py:100-115 | an emptied watch list comes back as the default three symbols after a restart |
| Snapshot.LoadReplacesTickers | Bot_trading_BN_2.32P.py:106 | loading a document without tickers empties them |
| Snapshot.ReloadIsStable | Bot_trading_BN_2.32P.py:92-119 | saving a loaded state and loading it into itself changes nothing |

## Left out

- Terminal drawing and key reading (curses) in every screen. Keys are abstract events, and the header, balance line and status-line text are not modelled.
- Exchange access: exchange setup, the candle fetch transport, `get_ticker` and `get_live_ticker`. Fetch results are parameters, and an empty list stands for every failure, as the fetcher reports failures.
- The tenacity retry decorator: a foreign library. `get_ticker` swallows every error, so it never retries.
- The ticker threads and the sleeps: concurrency. The trading screen's 10-second ticker refresh and its popping of cache pairs are covered only through `PlotCache.PopPairsIsNoop`.
- Opening the trading screen from the list (lines 821-824 and 831-834): it only checks that a ticker for the symbol is present, from the ticker thread or from the saved data restored at line 106, and then runs the trading screen, whose key handling is `OrderForm`; the ticker's contents are only drawn.
- JSON and file I/O: data.json, the candle files and keys.json. Only which fields are saved and loaded is modelled.
- Snapshot.LoadData: a truthy `tickers` value that is not a dictionary, and values of unexpected types for `pnl` and `last_update`, are not modelled. The document model admits a dictionary, or nothing, for `tickers`.
- The status text that `save_data` writes right after a successful placement overwrites the "added successfully" message. The model reports the placement's own status.
- The plotting library and `render_plotext_to_lines`: the rasteriser is the parameter `raster`. Errors from `plt.show()` are swallowed there, so `Raised` stands only for errors from the other plotting calls. Errors in the cleaning code itself cannot arise in the model.
- `_format_timestamp`: local time and `strftime`. The formatter is the parameter `fmt`; the `[11:16]` slice of its result is modelled.
- Floating-point rounding and `float()`/`str()` on numbers: amounts are `real`, and parsing and printing are the parameters `parse` and `show`.
- Watchlist.OpenFullscreen: only the chart's first frame is modelled. Later frames, and frames after a resize, call the builder again and may refresh or add entries under other sizes; the key loop and the drawing are terminal I/O.
- The `Update` menu action, which restarts the ticker thread, and `get_version`.

## Findings

| source | as written | input that shows it | evidently intended | confidence | as-written member | corrected member |
|---|---|---|---|---|---|---|
| Bot_trading_BN_2.32P.py:447-448 | the cache is invalidated with `pop((symbol, False))` and `pop((symbol, True))`, but every key `build_plot_lines` stores is a 4-tuple `(symbol, exact, height, width)`, so these pops never remove anything (likewise at 360, 550-551, 560-562, 607-608, 714-715, 728-729, 732-733, 745-746, 867-868) | build a chart at time t, fetch candles with a different last close, pop the pairs and build again at t + 1 s: the old rows come back | drop every cached chart of the symbol, whatever its mode and size, so the next build renders the new state | high; not executed | PlotCache.PopPairsLeavesStaleRows | PlotCache.InvalidateSymbolForcesRebuild |

=== FILE: ansi.dfy ===
/**
 Removal of terminal colour markup: every match of the pattern `ESC [ [0-9;]* m`
 is deleted, scanning left to right as a regular-expression substitution does,
 without re-scanning the text a deletion brings together.
 */
module Ansi {
  import opened Py

  /** The escape character that opens a colour sequence. */
  const Esc: char := 27 as char

  /** A character of the sequence's parameter list: a digit or `;`. */
  predicate IsParam(c: char) {
    '0' <= c <= '9' || c == ';'
  }

  /** Length of the run of parameter characters at the front of `s`. */
  function ParamRun(s: string): (n: nat)
    ensures n <= |s|
    ensures forall k :: 0 <= k < n ==> IsParam(s[k])
    ensures n == |s| || !IsParam(s[n])
  {
    if s != [] && IsParam(s[0]) then 1 + ParamRun(s[1..]) else 0
  }

  /**
   The length of the colour sequence the pattern matches at the start of `s`, if
   any. The parameter run is greedy, and giving characters back cannot help since
   none of them is `m`, so a match exists exactly when the maximal run is followed
   by `m`.
   */
  function MatchAt(s: string): (r: Option<nat>)
    ensures r.Some? ==> 3 <= r.value <= |s| && s[0] == Esc && s[1] == '[' && s[r.value - 1] == 'm'
    ensures r.Some? ==> forall k :: 2 <= k < r.value - 1 ==> IsParam(s[k])
    ensures s != [] && s[0] != Esc ==> r.None?
    ensures |s| >= 2 && s[0] == Esc && s[1] == '[' && 2 + ParamRun(s[2..]) < |s| && s[2 + ParamRun(s[2..])] == 'm' ==>
              r == Some(ParamRun(s[2..]) + 3)
    ensures r.Some? ==> |s| >= 2 && r.value == ParamRun(s[2..]) + 3
  {
    if |s| >= 2 && s[0] == Esc && s[1] == '[' then
      var n := ParamRun(s[2..]);
      if 2 + n < |s| && s[2 + n] == 'm' then Some(n + 3) else None
    else None
  }

  /** `strip_ansi`: delete every colour sequence, leftmost first, continuing after each deletion. */
  function StripAnsi(s: string): (r: string)
    ensures |r| <= |s|
    decreases |s|
  {
    if s == [] then []
    else match MatchAt(s)
      case Some(k) => StripAnsi(s[k..])
      case None => [s[0]] + StripAnsi(s[1..])
  }

  /** Text with no escape character passes through unchanged. */
  lemma {:induction false} StripAnsiPlain(t: string, u: string)
    requires Esc !in t
    ensures StripAnsi(t + u) == t + StripAnsi(u)
    decreases |t|
  {
    if t != [] {
      assert (t + u)[0] == t[0] && t[0] != Esc;
      assert MatchAt(t + u).None?;
      assert StripAnsi(t + u) == [t[0]] + StripAnsi((t + u)[1..]);
      assert (t + u)[1..] == t[1..] + u;
      assert Esc !in t[1..];
      StripAnsiPlain(t[1..], u);
      assert t == [t[0]] + t[1..];
    } else {
      assert t + u == u;
    }
  }

  /** A complete colour sequence at the front is removed and nothing else is touched. */
  lemma StripAnsiSgr(params: string, u: string)
    requires forall k :: 0 <= k < |params| ==> IsParam(params[k])
    ensures StripAnsi([Esc, '['] + params + ['m'] + u) == StripAnsi(u)
  {
    var s := [Esc, '['] + params + ['m'] + u;
    assert s[2..] == params + ['m'] + u;
    assert forall k :: 0 <= k < |params| ==> s[2..][k] == params[k];
    assert s[2..][|params|] == 'm';
    assert ParamRun(s[2..]) == |params|;
    assert s[2 + |params|] == 'm';
    assert s[|params| + 3..] == u;
  }

  /** Coloured text as the rasteriser writes it: plain runs and colour sequences. */
  datatype Piece = Text(t: string) | Sgr(params: string)

  predicate WellFormedPiece(p: Piece) {
    match p
    case Text(t) => Esc !in t
    case Sgr(params) => forall k :: 0 <= k < |params| ==> IsParam(params[k])
  }

  /** The characters of a piece sequence. */
  function Render(ps: seq<Piece>): string {
    if ps == [] then []
    else
      (match ps[0]
       case Text(t) => t
       case Sgr(params) => [Esc, '['] + params + ['m']) + Render(ps[1..])
  }

  /** The visible characters of a piece sequence: its plain runs only. */
  function Plain(ps: seq<Piece>): string {
    if ps == [] then []
    else (match ps[0] case Text(t) => t case Sgr(_) => []) + Plain(ps[1..])
  }

  /** Stripping rendered coloured text gives back exactly its plain runs. */
  lemma {:induction false} StripAnsiRender(ps: seq<Piece>)
    requires forall i :: 0 <= i < |ps| ==> WellFormedPiece(ps[i])
    ensures StripAnsi(Render(ps)) == Plain(ps)
  {
    if ps != [] {
      StripAnsiRender(ps[1..]);
      match ps[0]
      case Text(t) =>
        StripAnsiPlain(t, Render(ps[1..]));
      case Sgr(params) =>
        assert WellFormedPiece(ps[0]);
        StripAnsiSgr(params, Render(ps[1..]));
        assert [Esc, '['] + params + ['m'] + Render(ps[1..]) == ([Esc, '['] + params + ['m']) + Render(ps[1..]);
    }
  }

  /**
   Stripping is not idempotent: deleting an inner sequence can join the characters
   around it into a new one, which a single pass leaves in place.
   */
  lemma StripAnsiNotIdempotent()
    ensures var s := [Esc, '[', Esc, '[', 'm', 'm'];
            StripAnsi(s) == [Esc, '[', 'm'] && StripAnsi(StripAnsi(s)) == []
  {
    var s := [Esc, '[', Esc, '[', 'm', 'm'];
    var tail := [Esc, '[', 'm', 'm'];
    assert ParamRun(s[2..]) == 0;
    assert MatchAt(s).None?;
    assert StripAnsi(s) == [Esc] + StripAnsi(s[1..]);
    assert s[1..] == ['['] + tail;
    assert MatchAt(s[1..]).None?;
    assert StripAnsi(s[1..]) == ['['] + StripAnsi(tail);
    assert ParamRun(tail[2..]) == 0;
    assert MatchAt(tail) == Some(3);
    assert StripAnsi(tail) == StripAnsi(['m']);
    assert MatchAt(['m']).None?;
    assert StripAnsi(['m']) == ['m'] + StripAnsi([]);
    var once := [Esc, '[', 'm'];
    assert ParamRun(once[2..]) == 0;
    assert MatchAt(once) == Some(3);
    assert StripAnsi(once) == StripAnsi([]);
  }
}

=== FILE: candles.dfy ===
/**
 The candle window behind each chart: which candles are kept after a fetch, and
 the periodic refresh that keeps the previous window whenever a fetch comes back
 empty. Fetching itself is network access; the fetched list is a parameter, with
 the empty list standing for every failure, as the fetcher reports failures.
 */
module CandleWindow {
  import opened Py
  import opened Chart
  import PlotCache

  /** Candles shown by the full-screen chart. */
  const FullscreenCandles: nat := 16

  /** Candles kept by the trading screen: `max(fullscreen_candles, 16)`. */
  const WindowSize: nat := if FullscreenCandles > 16 then FullscreenCandles else 16

  /** Seconds between two fetches on the trading screen. */
  const FetchInterval: real := 30.0

  /** A list is a suffix of another. */
  predicate IsSuffix<T(==)>(r: seq<T>, s: seq<T>) {
    |r| <= |s| && r == s[|s| - |r|..]
  }

  /**
   `candles = fetched[-k:]` when the fetch returned something, otherwise the
   candles already at hand (those loaded from disk, or the previous window).
   */
  function Prefer(fetched: seq<Candle>, fallback: seq<Candle>, k: nat): (r: seq<Candle>)
    ensures fetched == [] ==> r == fallback
    ensures fetched != [] ==> IsSuffix(r, fetched)
    ensures fetched != [] && 0 < k ==> |r| == (if k <= |fetched| then k else |fetched|)
  {
    if fetched != [] then Last(fetched, k) else fallback
  }

  /** The full-screen chart's own trim: `candles[-fullscreen_candles:] if candles else []`. */
  function FullscreenSlice(cs: seq<Candle>): (r: seq<Candle>)
    ensures IsSuffix(r, cs)
    ensures |r| == (if |cs| <= FullscreenCandles then |cs| else FullscreenCandles)
  {
    if cs != [] then Last(cs, FullscreenCandles) else []
  }

  /**
   One refresh of the trading screen's window: an empty fetch keeps the window
   and asks for nothing; otherwise the window becomes the last `WindowSize`
   fetched candles, and the chart cache is to be invalidated exactly when the
   newest close changed (or there was no previous candle).
   */
  function Refresh(window: seq<Candle>, fetched: seq<Candle>): (r: (seq<Candle>, bool))
    ensures fetched == [] ==> r == (window, false)
    ensures fetched != [] ==> r.0 != [] && IsSuffix(r.0, fetched) && |r.0| == (if |fetched| <= WindowSize then |fetched| else WindowSize)
    ensures fetched != [] ==> (r.1 <==> window == [] || window[|window| - 1].close != fetched[|fetched| - 1].close)
  {
    if fetched == [] then (window, false)
    else
      var next := Last(fetched, WindowSize);
      (next, PlotCache.LastClose(window) != PlotCache.LastClose(next))
  }

  /**
   The timed refresh: when at least `FetchInterval` seconds have passed since the
   last attempt, fetch (the result is `fetched`) and restart the clock whether or
   not the fetch succeeded; otherwise change nothing.
   */
  function Tick(window: seq<Candle>, lastAttempt: real, now: real, fetched: seq<Candle>): (r: (seq<Candle>, real, bool))
    ensures now - lastAttempt < FetchInterval ==> r == (window, lastAttempt, false)
    ensures now - lastAttempt >= FetchInterval ==> r.1 == now && (r.0, r.2) == Refresh(window, fetched)
  {
    if now - lastAttempt >= FetchInterval then
      var (w, invalidate) := Refresh(window, fetched);
      (w, now, invalidate)
    else (window, lastAttempt, false)
  }

  /**
   The trading screen's `r` key before it opens the full-screen chart: a non-empty
   fetch becomes the window just as a timed refresh makes it, but a failed fetch
   replaces the window with the candles loaded from disk instead of keeping it.
   */
  function Reload(window: seq<Candle>, fetched: seq<Candle>, loaded: seq<Candle>): (r: seq<Candle>)
    ensures fetched != [] ==> r == Refresh(window, fetched).0
    ensures fetched == [] ==> r == loaded
  {
    if fetched != [] then Last(fetched, WindowSize) else loaded
  }

  /** The window after a run of refreshes, one per fetched list, in order. */
  function RefreshAll(window: seq<Candle>, fetches: seq<seq<Candle>>): seq<Candle>
    decreases |fetches|
  {
    if fetches == [] then window else RefreshAll(Refresh(window, fetches[0]).0, fetches[1..])
  }

  // ---------------------------------------------------------------------------
  // Properties
  // ---------------------------------------------------------------------------

  /** However many fetches fail in a row, the window is the one from before them. */
  lemma {:induction false} FailuresKeepWindow(window: seq<Candle>, fetches: seq<seq<Candle>>)
    requires forall i :: 0 <= i < |fetches| ==> fetches[i] == []
    ensures RefreshAll(window, fetches) == window
    decreases |fetches|
  {
    if fetches != [] {
      assert Refresh(window, fetches[0]).0 == window;
      FailuresKeepWindow(window, fetches[1..]);
    }
  }

  /** After a run of refreshes the window is the trimmed result of the latest non-empty fetch, whatever came before it. */
  lemma {:induction false} LatestFetchWins(window: seq<Candle>, fetches: seq<seq<Candle>>, j: nat)
    requires j < |fetches| && fetches[j] != []
    requires forall i :: j < i < |fetches| ==> fetches[i] == []
    ensures RefreshAll(window, fetches) == Last(fetches[j], WindowSize)
    decreases |fetches|
  {
    if j == 0 {
      FailuresKeepWindow(Refresh(window, fetches[0]).0, fetches[1..]);
    } else {
      LatestFetchWins(Refresh(window, fetches[0]).0, fetches[1..], j - 1);
    }
  }

  /** A window of at most `WindowSize` candles stays that small through any run of refreshes. */
  lemma {:induction false} WindowStaysBounded(window: seq<Candle>, fetches: seq<seq<Candle>>)
    requires |window| <= WindowSize
    ensures |RefreshAll(window, fetches)| <= WindowSize
    decreases |fetches|
  {
    if fetches != [] {
      WindowStaysBounded(Refresh(window, fetches[0]).0, fetches[1..]);
    }
  }

  /** Trimming for the full-screen chart after keeping a window changes nothing, since the window is no longer than the full-screen count. */
  lemma FullscreenOfWindow(window: seq<Candle>, fetched: seq<Candle>)
    requires fetched != []
    ensures FullscreenSlice(Refresh(window, fetched).0) == Refresh(window, fetched).0
  {
  }

  /** Refreshing twice with the same fetch asks for invalidation at most the first time. */
  lemma RefreshTwiceSettles(window: seq<Candle>, fetched: seq<Candle>)
    ensures var once := Refresh(window, fetched);
            var twice := Refresh(once.0, fetched);
            twice.0 == once.0 && !twice.1
  {
    if fetched != [] {
      var once := Refresh(window, fetched).0;
      assert once[|once| - 1] == fetched[|fetched| - 1];
    }
  }

  /**
   The reload breaks the bound the timed refresh keeps: however many refreshes
   keep a window within `WindowSize`, one failed reload with more candles on disk
   than that leaves a longer window, unlike a failed refresh.
   */
  lemma {:induction false} ReloadBreaksBound(window: seq<Candle>, fetches: seq<seq<Candle>>, loaded: seq<Candle>)
    requires |window| <= WindowSize && |loaded| > WindowSize
    ensures var w := RefreshAll(window, fetches);
            && |w| <= WindowSize
            && |Refresh(w, []).0| <= WindowSize
            && |Reload(w, [], loaded)| > WindowSize
  {
    WindowStaysBounded(window, fetches);
  }
}

=== FILE: chart.dfy ===
/**
 The candlestick chart: how a candle window becomes coloured line segments and a
 tight vertical range, and how the rasteriser's text output is cleaned into a
 fixed number of rows with a time-label row at the bottom. The rasteriser itself
 is a parameter: given the plot description it either returns the lines it
 printed or raises.
 */
module Chart {
  import opened Py
  import opened Ansi

  /** One OHLCV candle; `timestamp` is in epoch milliseconds. */
  datatype Candle = Candle(timestamp: int, open: real, high: real, low: real, close: real, volume: real)

  /** Half the width of a candle body, in plot x units. */
  const BodyHalfWidth: real := 0.3

  /** `Bull` is drawn green, `Bear` red. */
  datatype Color = Bull | Bear

  /** A straight line from `(x0, y0)` to `(x1, y1)`: one `plot([x0, x1], [y0, y1], color=...)` call. */
  datatype Segment = Segment(x0: real, x1: real, y0: real, y1: real, color: Color)

  /** What is handed to the rasteriser: plot size `(width + 1, height)`, the y-limits if any, whether x ticks are hidden, and the segments in drawing order. */
  datatype PlotSpec = PlotSpec(plotWidth: int, plotHeight: int, ylim: Option<(real, real)>, hideXTicks: bool, segments: seq<Segment>)

  /** What the rasteriser did: the lines it printed (still carrying colour markup), or the message of the exception a plotting call raised. */
  datatype Captured = Printed(lines: seq<string>) | Raised(message: string)

  /** A candle whose low and high bound its open and close. */
  predicate WellFormedCandle(c: Candle) {
    c.low <= c.open <= c.high && c.low <= c.close <= c.high
  }

  // ---------------------------------------------------------------------------
  // Geometry
  // ---------------------------------------------------------------------------

  /** The six segments of candle `i`: wick close to high, wick low to open, then the four edges of the body box over `[open, close]`. */
  function CandleSegments(i: nat, c: Candle): (r: seq<Segment>)
    ensures |r| == 6
  {
    var x := i as real;
    var color := if c.open > c.close then Bear else Bull;
    var left := x - BodyHalfWidth;
    var right := x + BodyHalfWidth;
    [ Segment(x, x, c.close, c.high, color),
      Segment(x, x, c.low, c.open, color),
      Segment(left, right, c.open, c.open, color),
      Segment(left, right, c.close, c.close, color),
      Segment(left, left, c.open, c.close, color),
      Segment(right, right, c.open, c.close, color) ]
  }

  /** The segments of a window, candle after candle, candle `i` at x = `i`. */
  function Segments(cs: seq<Candle>): (r: seq<Segment>)
    ensures |r| == 6 * |cs|
    ensures forall i :: 0 <= i < |cs| ==> r[6 * i .. 6 * i + 6] == CandleSegments(i, cs[i])
  {
    if cs == [] then []
    else
      var n := |cs| - 1;
      var prev := Segments(cs[..n]);
      var r := prev + CandleSegments(n, cs[n]);
      assert forall i :: 0 <= i < n ==> r[6 * i .. 6 * i + 6] == prev[6 * i .. 6 * i + 6];
      assert r[6 * n .. 6 * n + 6] == CandleSegments(n, cs[n]);
      r
  }

  /** `min(lows)` */
  function MinLow(cs: seq<Candle>): (r: real)
    requires |cs| > 0
    ensures forall i :: 0 <= i < |cs| ==> r <= cs[i].low
    ensures exists i :: 0 <= i < |cs| && r == cs[i].low
  {
    if |cs| == 1 then cs[0].low
    else
      var m := MinLow(cs[1..]);
      assert forall i :: 1 <= i < |cs| ==> cs[i] == cs[1..][i - 1];
      if cs[0].low <= m then cs[0].low else m
  }

  /** `max(highs)` */
  function MaxHigh(cs: seq<Candle>): (r: real)
    requires |cs| > 0
    ensures forall i :: 0 <= i < |cs| ==> cs[i].high <= r
    ensures exists i :: 0 <= i < |cs| && r == cs[i].high
  {
    if |cs| == 1 then cs[0].high
    else
      var m := MaxHigh(cs[1..]);
      assert forall i :: 1 <= i < |cs| ==> cs[i] == cs[1..][i - 1];
      if cs[0].high >= m then cs[0].high else m
  }

  /** The y-limits set before drawing: none for an empty window, otherwise exactly (lowest low, highest high), with no padding. */
  function YLimits(cs: seq<Candle>): (r: Option<(real, real)>)
    ensures r.None? <==> |cs| == 0
    ensures r.Some? ==> (forall i :: 0 <= i < |cs| ==> r.value.0 <= cs[i].low && cs[i].high <= r.value.1)
    ensures r.Some? ==> (exists i :: 0 <= i < |cs| && r.value.0 == cs[i].low)
    ensures r.Some? ==> (exists i :: 0 <= i < |cs| && r.value.1 == cs[i].high)
  {
    if |cs| == 0 then None else Some((MinLow(cs), MaxHigh(cs)))
  }

  /** The plot description for a window and viewport; x ticks are hidden in mini mode only. */
  function Plot(cs: seq<Candle>, height: int, width: int, exact: bool): (r: PlotSpec)
    ensures r.plotWidth == width + 1 && r.plotHeight == height
    ensures r.hideXTicks <==> !exact
    ensures r.ylim.None? <==> cs == []
    ensures r.ylim.Some? ==> forall i :: 0 <= i < |cs| ==> r.ylim.value.0 <= cs[i].low && cs[i].high <= r.ylim.value.1
    ensures |r.segments| == 6 * |cs|
    ensures forall i :: 0 <= i < |cs| ==> r.segments[6 * i .. 6 * i + 6] == CandleSegments(i, cs[i])
  {
    PlotSpec(width + 1, height, YLimits(cs), !exact, Segments(cs))
  }

  /** Segment `6 * i + j` of a window is segment `j` of candle `i`. */
  lemma SegmentAt(cs: seq<Candle>, i: nat, j: nat)
    requires i < |cs| && j < 6
    ensures Segments(cs)[6 * i + j] == CandleSegments(i, cs[i])[j]
  {
    assert Segments(cs)[6 * i + j] == Segments(cs)[6 * i .. 6 * i + 6][j];
  }

  /** Every segment is red exactly when its candle opened above its close. */
  lemma SegmentColors(cs: seq<Candle>)
    ensures forall k :: 0 <= k < |Segments(cs)| ==>
              (Segments(cs)[k].color == Bear <==> cs[k / 6].open > cs[k / 6].close)
  {
    forall k | 0 <= k < |Segments(cs)|
      ensures k / 6 < |cs| && (Segments(cs)[k].color == Bear <==> cs[k / 6].open > cs[k / 6].close)
    {
      var i, j := k / 6, k % 6;
      assert k == 6 * i + j;
      SegmentAt(cs, i, j);
    }
  }

  /** Every segment end of a well-formed candle lies between its low and its high. */
  lemma SegmentWithinCandle(i: nat, c: Candle, j: nat)
    requires WellFormedCandle(c) && j < 6
    ensures var s := CandleSegments(i, c)[j];
            c.low <= s.y0 <= c.high && c.low <= s.y1 <= c.high
  {
  }

  /** Every segment of a window of well-formed candles lies inside the y-limits. */
  lemma SegmentsWithinYLimits(cs: seq<Candle>, lo: real, hi: real)
    requires YLimits(cs) == Some((lo, hi))
    requires forall i :: 0 <= i < |cs| ==> WellFormedCandle(cs[i])
    ensures forall k :: 0 <= k < |Segments(cs)| ==>
              var s := Segments(cs)[k]; lo <= s.y0 <= hi && lo <= s.y1 <= hi
  {
    var segs := Segments(cs);
    forall k | 0 <= k < |segs|
      ensures lo <= segs[k].y0 <= hi && lo <= segs[k].y1 <= hi
    {
      var i, j := k / 6, k % 6;
      assert k == 6 * i + j;
      SegmentAt(cs, i, j);
      SegmentWithinCandle(i, cs[i], j);
      assert lo <= cs[i].low && cs[i].high <= hi;
    }
  }

  /** The lowest low is the start of some candle's lower wick, and the highest high the end of some candle's upper wick. */
  lemma YLimitsTouched(cs: seq<Candle>, lo: real, hi: real)
    requires YLimits(cs) == Some((lo, hi))
    ensures exists k :: 0 <= k < |Segments(cs)| && Segments(cs)[k].y0 == lo
    ensures exists k :: 0 <= k < |Segments(cs)| && Segments(cs)[k].y1 == hi
  {
    var segs := Segments(cs);
    assert |segs| == 6 * |cs|;
    var i :| 0 <= i < |cs| && lo == cs[i].low;
    SegmentAt(cs, i, 1);
    assert CandleSegments(i, cs[i])[1].y0 == cs[i].low;
    assert 6 * i + 1 < |segs| && segs[6 * i + 1].y0 == lo;
    var j :| 0 <= j < |cs| && hi == cs[j].high;
    SegmentAt(cs, j, 0);
    assert CandleSegments(j, cs[j])[0].y1 == cs[j].high;
    assert 6 * j < |segs| && segs[6 * j + 0].y1 == hi;
  }

  /**
   The vertical range is tight: every segment of a window of well-formed candles
   lies inside the y-limits, and both limits are touched by some segment end.
   */
  lemma YLimitsTight(cs: seq<Candle>)
    requires |cs| > 0
    requires forall i :: 0 <= i < |cs| ==> WellFormedCandle(cs[i])
    ensures YLimits(cs).Some?
    ensures var (lo, hi) := YLimits(cs).value;
            && (forall k :: 0 <= k < |Segments(cs)| ==> var s := Segments(cs)[k]; lo <= s.y0 <= hi && lo <= s.y1 <= hi)
            && (exists k :: 0 <= k < |Segments(cs)| && Segments(cs)[k].y0 == lo)
            && (exists k :: 0 <= k < |Segments(cs)| && Segments(cs)[k].y1 == hi)
  {
    var (lo, hi) := YLimits(cs).value;
    SegmentsWithinYLimits(cs, lo, hi);
    YLimitsTouched(cs, lo, hi);
  }

  // ---------------------------------------------------------------------------
  // Cleaning the rasteriser's output
  // ---------------------------------------------------------------------------

  /** The captured lines with colour markup stripped from each. */
  function StripAll(lines: seq<string>): (r: seq<string>)
    ensures |r| == |lines| && forall i :: 0 <= i < |r| ==> r[i] == StripAnsi(lines[i])
  {
    seq(|lines|, i requires 0 <= i < |lines| => StripAnsi(lines[i]))
  }

  /** Drop the leading rows that are empty after `strip()`. */
  function DropLeadingBlank(rows: seq<string>): (r: seq<string>)
    ensures |r| <= |rows| && r == rows[|rows| - |r|..]
    ensures forall i :: 0 <= i < |rows| - |r| ==> IsBlank(rows[i])
    ensures r == [] || !IsBlank(r[0])
  {
    if rows != [] && Strip(rows[0]) == [] then DropLeadingBlank(rows[1..]) else rows
  }

  /** A character of an axis-tick row: a digit, `-`, space, `.` or `,`. */
  predicate IsTickChar(c: char) {
    ('0' <= c <= '9') || c == '-' || c == ' ' || c == '.' || c == ','
  }

  function CountTickChars(s: string): (n: nat)
    ensures n <= |s|
  {
    if s == [] then 0 else (if IsTickChar(s[0]) then 1 else 0) + CountTickChars(s[1..])
  }

  /**
   `_is_axis_tick_line`: a row that is not blank and whose stripped text is longer
   than 3 characters, more than 70% of which are tick characters.
   */
  predicate IsAxisTickLine(line: string) {
    if line == [] || Strip(line) == [] then false
    else
      var s := Strip(line);
      var denominator := if |s| > 1 then |s| else 1;
      (CountTickChars(s) as real) / (denominator as real) > 0.7 && |s| > 3
  }

  /** For a positive denominator, `c / d > 0.7` is `10 c > 7 d`. */
  lemma RatioAboveSevenTenths(c: real, d: real)
    requires d > 0.0
    ensures c / d > 0.7 <==> 10.0 * c > 7.0 * d
  {
    var q := c / d;
    assert q * d == c;
    if q > 0.7 {
      assert (q - 0.7) * d > 0.0;
    } else {
      assert (0.7 - q) * d >= 0.0;
    }
  }

  /** The ratio test in whole numbers: a row is an axis-tick row exactly when its stripped text has more than 3 characters and ten times its tick characters exceed seven times its length; blank rows never are. */
  lemma AxisTickLineIff(line: string)
    ensures IsAxisTickLine(line) <==>
              |Strip(line)| > 3 && 10 * CountTickChars(Strip(line)) > 7 * |Strip(line)|
    ensures IsBlank(line) ==> !IsAxisTickLine(line)
  {
    var s := Strip(line);
    if |s| > 3 {
      assert line != [];
      RatioAboveSevenTenths(CountTickChars(s) as real, |s| as real);
    }
  }

  /** Mini mode drops axis-tick rows; exact mode keeps every row. */
  function FilterAxis(rows: seq<string>, exact: bool): (r: seq<string>)
    ensures exact ==> r == rows
    ensures !exact ==> forall x :: x in r <==> x in rows && !IsAxisTickLine(x)
    ensures |r| <= |rows|
  {
    if exact || rows == [] then rows
    else
      var rest := FilterAxis(rows[1..], exact);
      assert rows == [rows[0]] + rows[1..];
      if IsAxisTickLine(rows[0]) then rest else [rows[0]] + rest
  }

  /** Filtering works row by row: it commutes with concatenation, so kept rows stay in their order. */
  lemma {:induction false} FilterAxisAppend(a: seq<string>, b: seq<string>, exact: bool)
    ensures FilterAxis(a + b, exact) == FilterAxis(a, exact) + FilterAxis(b, exact)
  {
    if !exact && a != [] {
      assert (a + b)[0] == a[0];
      assert (a + b)[1..] == a[1..] + b;
      FilterAxisAppend(a[1..], b, exact);
    } else if a == [] {
      assert a + b == b;
    }
  }

  /** A padding row: `width + 4` spaces (none when that is not positive). */
  function PadRow(width: int): string {
    Repeat(' ', width + 4)
  }

  /** Keep the first `height - 1` rows, or pad at the bottom up to that many. */
  function CropOrPad(rows: seq<string>, height: int, width: int): (r: seq<string>)
    ensures 1 <= height ==> |r| == height - 1
    ensures 1 <= height ==> forall i :: 0 <= i < |r| ==> r[i] == (if i < |rows| then rows[i] else PadRow(width))
    ensures height < 1 ==> r == Take(rows, height - 1)
  {
    if |rows| >= height - 1 then Take(rows, height - 1)
    else rows + seq((height - 1) - |rows|, _ => PadRow(width))
  }

  /** `HH:MM` of a timestamp: characters 11 to 16 of its formatted date-time. */
  function Label(fmt: int -> string, ts: int): string {
    Slice(fmt(ts), 11, 16)
  }

  function Labels(fmt: int -> string, ts: seq<int>): (r: seq<string>)
    ensures |r| == |ts| && forall i :: 0 <= i < |r| ==> r[i] == Label(fmt, ts[i])
  {
    seq(|ts|, i requires 0 <= i < |ts| => Label(fmt, ts[i]))
  }

  function Timestamps(cs: seq<Candle>): (r: seq<int>)
    ensures |r| == |cs| && forall i :: 0 <= i < |r| ==> r[i] == cs[i].timestamp
  {
    seq(|cs|, i requires 0 <= i < |cs| => cs[i].timestamp)
  }

  /** The time row under `n` body rows: the labels of the last `n` candles joined by spaces and cut to `width + 4`, or empty with no candles. */
  function TimeRow(cs: seq<Candle>, n: nat, width: int, fmt: int -> string): (r: string)
    ensures cs == [] ==> r == []
    ensures width + 4 >= 0 ==> |r| <= width + 4
  {
    if cs == [] then []
    else Take(Join(' ', Labels(fmt, Last(Timestamps(cs), n))), width + 4)
  }

  /** Cut every row to its first `width + 4` characters. */
  function TruncateRows(rows: seq<string>, width: int): (r: seq<string>)
    ensures |r| == |rows|
    ensures forall i :: 0 <= i < |r| ==> r[i] == Take(rows[i], width + 4)
    ensures width + 4 >= 0 ==> forall i :: 0 <= i < |r| ==> |r[i]| <= width + 4
  {
    seq(|rows|, i requires 0 <= i < |rows| => Take(rows[i], width + 4))
  }

  /** The cleaning pipeline, in the order `build_plot_lines` applies its steps, on markup-free lines. */
  function Postprocess(lines: seq<string>, cs: seq<Candle>, height: int, width: int, exact: bool, fmt: int -> string): (r: seq<string>)
    ensures 1 <= height ==> |r| == height
    ensures width + 4 >= 0 ==> forall i :: 0 <= i < |r| ==> |r[i]| <= width + 4
    ensures r != [] && 1 <= height ==> r[|r| - 1] == Take(TimeRow(cs, height - 1, width, fmt), width + 4)
  {
    var body := CropOrPad(FilterAxis(DropLeadingBlank(lines), exact), height, width);
    TruncateRows(body + [TimeRow(cs, |body|, width, fmt)], width)
  }

  /** The rows of a successful chart build (the body of the `try`), or the single diagnostic row of a failed one. */
  function ChartRows(cs: seq<Candle>, height: int, width: int, exact: bool,
                     raster: PlotSpec -> Captured, fmt: int -> string): (r: seq<string>)
    ensures raster(Plot(cs, height, width, exact)).Raised? ==> |r| == 1 && |r[0]| >= 12 && r[0][..12] == "Plot error: "
    ensures raster(Plot(cs, height, width, exact)).Printed? && 1 <= height ==> |r| == height
    ensures raster(Plot(cs, height, width, exact)).Printed? && 1 <= height && width + 4 >= 0 ==>
              forall i :: 0 <= i < |r| ==> |r[i]| <= width + 4
  {
    match raster(Plot(cs, height, width, exact))
    case Raised(message) => ["Plot error: " + message]
    case Printed(lines) =>
      if 1 <= height then
        PostprocessShape(StripAll(lines), cs, height, width, exact, fmt);
        Postprocess(StripAll(lines), cs, height, width, exact, fmt)
      else Postprocess(StripAll(lines), cs, height, width, exact, fmt)
  }

  /**
   The shape of a cleaned chart for a height of at least 1: exactly `height` rows;
   row `i` above the last is the `i`-th non-blank-led, filtered row or a padding
   row, cut to `width + 4`; the last row is the time row over the last `height - 1`
   candles (over all of them when `height` is 1, since `ts[-0:]` is the whole list).
   */
  lemma PostprocessShape(lines: seq<string>, cs: seq<Candle>, height: int, width: int, exact: bool, fmt: int -> string)
    requires 1 <= height
    ensures var r := Postprocess(lines, cs, height, width, exact, fmt);
            var kept := FilterAxis(DropLeadingBlank(lines), exact);
            && |r| == height
            && (forall i :: 0 <= i < height - 1 ==>
                  r[i] == Take(if i < |kept| then kept[i] else PadRow(width), width + 4))
            && r[height - 1] == Take(TimeRow(cs, height - 1, width, fmt), width + 4)
            && (width + 4 >= 0 ==> forall i :: 0 <= i < height ==> |r[i]| <= width + 4)
            && (cs == [] ==> r[height - 1] == [])
  {
    var kept := FilterAxis(DropLeadingBlank(lines), exact);
    var body := CropOrPad(kept, height, width);
    var rows := body + [TimeRow(cs, |body|, width, fmt)];
    assert forall i :: 0 <= i < height - 1 ==> rows[i] == body[i];
  }

  /** In mini mode no axis-tick row survives into the chart body. */
  lemma MiniModeDropsAxisRows(lines: seq<string>)
    ensures var kept := FilterAxis(DropLeadingBlank(StripAll(lines)), false);
            forall i :: 0 <= i < |kept| ==> !IsAxisTickLine(kept[i])
  {
    var kept := FilterAxis(DropLeadingBlank(StripAll(lines)), false);
    forall i | 0 <= i < |kept| ensures !IsAxisTickLine(kept[i]) {
      assert kept[i] in kept;
    }
  }

  /** With no candles the time row is empty, and with candles it uses only their `HH:MM` labels. */
  lemma TimeRowOfWindow(cs: seq<Candle>, n: nat, width: int, fmt: int -> string)
    requires 0 < n <= |cs| && width + 4 >= 0
    ensures TimeRow(cs, n, width, fmt) == Take(Join(' ', Labels(fmt, Timestamps(cs[|cs| - n..]))), width + 4)
  {
    assert Last(Timestamps(cs), n) == Timestamps(cs[|cs| - n..]);
  }
}

=== FILE: editor.dfy ===
/**
 The order form of the trading screen and of the order editor, driven one key
 at a time. Keys are abstract events; the screens' drawing is not modelled.
 Quantity and price text go through `parse`, which stands for Python's
 `float(...)` and fails with `ValueError` on text it cannot read.
 */
module OrderForm {
  import opened Py
  import opened Ledger

  /** The key events the screens react to; every other key code, and no key at all, is `Other`. */
  datatype Key = Up | Down | Backspace | Enter | Char(c: char) | Other

  /**
   The form: the selected row (0 type, 1 quantity, 2 price, 3 take-profit,
   4 stop-loss, 5 the submit row), the five texts, and the highlighted open order.
   */
  datatype Form = Form(field: int, side: string, qty: string, price: string, tp: string, sl: string, orderIndex: int)

  /** The submit row. */
  const SubmitField: int := 5

  /** The form the trading screen opens with. */
  const Blank: Form := Form(0, "", "", "", "", "", 0)

  /** What the screen reports after a key; `Succeeded` and `Failed` come from a submission. */
  datatype Status = Unchanged | Succeeded(side: string, symbol: string) | Failed(error: PyError) | PleaseFill

  /** Where the screen goes next. */
  datatype Next = Stay | OpenOptions | OpenFullscreen | Leave

  /** The result of one key: the form, the ledger, the status, whether the chart cache is to be invalidated, and where to go. */
  datatype Outcome = Outcome(form: Form, book: Book, status: Status, invalidate: bool, next: Next)

  predicate IsEntryChar(c: char) {
    '0' <= c <= '9' || c == '.'
  }

  predicate IsSideChar(c: char) {
    c == 'b' || c == 's'
  }

  /** The invariant of the trading screen's form. */
  predicate Valid(form: Form) {
    && 0 <= form.field <= SubmitField
    && (form.side == [] || form.side == ['b'] || form.side == ['s'])
    && 0 <= form.orderIndex
  }

  /** The text of entry row `f`: 1 quantity, 2 price, 3 take-profit, 4 stop-loss; other rows have none. */
  function EntryText(form: Form, f: int): string {
    if f == 1 then form.qty
    else if f == 2 then form.price
    else if f == 3 then form.tp
    else if f == 4 then form.sl
    else []
  }

  /** Replace the text of entry row `f`; on any other row nothing changes. */
  function SetEntry(form: Form, f: int, t: string): (r: Form)
    ensures forall g :: 1 <= g <= 4 ==> EntryText(r, g) == (if g == f then t else EntryText(form, g))
    ensures r.field == form.field && r.side == form.side && r.orderIndex == form.orderIndex
    ensures !(1 <= f <= 4) ==> r == form
  {
    if f == 1 then form.(qty := t)
    else if f == 2 then form.(price := t)
    else if f == 3 then form.(tp := t)
    else if f == 4 then form.(sl := t)
    else form
  }

  /** `type_f = quantity = price_f = tp = sl = ''`: every text emptied, the cursor left where it is. */
  function ClearEntries(form: Form): (r: Form)
    ensures r.field == form.field && r.orderIndex == form.orderIndex
    ensures r.side == [] && forall g :: 1 <= g <= 4 ==> EntryText(r, g) == []
  {
    form.(side := [], qty := [], price := [], tp := [], sl := [])
  }

  /** The three texts a submission needs are all non-empty. */
  predicate Filled(form: Form) {
    form.side != [] && form.qty != [] && form.price != []
  }

  /**
   A printable key: `b` or `s` on the type row sets the side; a digit or `.` on an
   entry row is appended to that row's text; any other combination is ignored.
   */
  function TypeChar(form: Form, c: char): (r: Form)
    ensures IsSideChar(c) ==> r == (if form.field == 0 then form.(side := [c]) else form)
    ensures IsEntryChar(c) ==>
              && r.field == form.field && r.side == form.side && r.orderIndex == form.orderIndex
              && forall g :: 1 <= g <= 4 ==> EntryText(r, g) == EntryText(form, g) + (if g == form.field then [c] else [])
    ensures !IsSideChar(c) && !IsEntryChar(c) ==> r == form
  {
    if IsSideChar(c) then (if form.field == 0 then form.(side := [c]) else form)
    else if IsEntryChar(c) then SetEntry(form, form.field, EntryText(form, form.field) + [c])
    else form
  }

  /** Backspace: `text[:-1]` on the selected row's text (the side on the type row); nothing on the submit row. */
  function Erase(form: Form): (r: Form)
    ensures form.field == 0 ==> r == form.(side := if form.side == [] then [] else form.side[..|form.side| - 1])
    ensures 1 <= form.field <= 4 ==>
              var t := EntryText(form, form.field);
              r == SetEntry(form, form.field, if t == [] then [] else t[..|t| - 1])
    ensures !(0 <= form.field <= 4) ==> r == form
  {
    if form.field == 0 then form.(side := Take(form.side, -1))
    else SetEntry(form, form.field, Take(EntryText(form, form.field), -1))
  }

  /** Up on the trading screen: the previous row, or once on the type row the previous open order. */
  function MoveUp(form: Form): (r: Form)
    ensures form.field > 0 ==> r == form.(field := form.field - 1)
    ensures form.field <= 0 && form.orderIndex > 0 ==> r == form.(orderIndex := form.orderIndex - 1)
    ensures form.field <= 0 && form.orderIndex <= 0 ==> r == form
  {
    if form.field > 0 then form.(field := form.field - 1)
    else if form.orderIndex > 0 then form.(orderIndex := form.orderIndex - 1)
    else form
  }

  /** Down on the trading screen: the next row, or once on the submit row the next of `count` open orders. */
  function MoveDown(form: Form, count: int): (r: Form)
    ensures form.field < SubmitField ==> r == form.(field := form.field + 1)
    ensures form.field >= SubmitField && form.orderIndex < count - 1 ==> r == form.(orderIndex := form.orderIndex + 1)
    ensures form.field >= SubmitField && form.orderIndex >= count - 1 ==> r == form
  {
    if form.field < SubmitField then form.(field := form.field + 1)
    else if form.orderIndex < count - 1 then form.(orderIndex := form.orderIndex + 1)
    else form
  }

  /**
   Enter on the submit row of the trading screen. With a type, a quantity and a
   price, the two texts are parsed and the order placed on `symbol`; success asks
   for the chart to be invalidated, and an error from parsing or placing is
   reported. Either way the texts are then emptied. Without all three texts only
   the status changes.
   */
  function Submit(form: Form, book: Book, symbol: string, parse: string -> Option<real>): (r: Outcome)
    ensures !Filled(form) ==> r == Outcome(form, book, PleaseFill, false, Stay)
    ensures Filled(form) ==> r.form == ClearEntries(form) && r.next == Stay
    ensures Filled(form) && (parse(form.qty).None? || parse(form.price).None?) ==> r.book == book && r.status.Failed?
    ensures Filled(form) && parse(form.qty).Some? && parse(form.price).Some? ==>
              var placed := PlaceLimitOrder(book, form.side, parse(form.qty).value, parse(form.price).value, symbol);
              && r.book == placed.book
              && r.book.orders == book.orders + [Order(form.side, parse(form.qty).value, parse(form.price).value, symbol)]
              && (r.status.Succeeded? <==> placed.error.None?)
    ensures r.invalidate <==> r.status.Succeeded?
    ensures r.status.Succeeded? ==> r.status == Succeeded(form.side, symbol)
  {
    if !Filled(form) then Outcome(form, book, PleaseFill, false, Stay)
    else
      var cleared := ClearEntries(form);
      match parse(form.qty)
      case None => Outcome(cleared, book, Failed(ValueError(form.qty)), false, Stay)
      case Some(q) =>
        match parse(form.price)
        case None => Outcome(cleared, book, Failed(ValueError(form.price)), false, Stay)
        case Some(p) =>
          var placed := PlaceLimitOrder(book, form.side, q, p, symbol);
          match placed.error
          case Some(e) => Outcome(cleared, placed.book, Failed(e), false, Stay)
          case None => Outcome(cleared, placed.book, Succeeded(form.side, symbol), true, Stay)
  }

  /** One key on the trading screen for `symbol`. */
  function TradingStep(form: Form, book: Book, symbol: string, key: Key, parse: string -> Option<real>): (r: Outcome)
    ensures key != Enter ==> r.book == book && r.status == Unchanged && !r.invalidate
    ensures key == Enter && form.field != SubmitField ==> r == Outcome(form, book, Unchanged, false, Stay)
    ensures key == Enter && form.field == SubmitField ==> r == Submit(form, book, symbol, parse)
    ensures key == Char('c') ==> r.form == form && (r.next == OpenOptions <==> form.orderIndex < |book.orders|)
    ensures key == Char('r') || key == Char('R') ==> r.form == form && r.next == OpenFullscreen
    ensures key == Char('q') ==> r.form == form && r.next == Leave
    ensures key == Up ==> r.form == MoveUp(form) && r.next == Stay
    ensures key == Down ==> r.form == MoveDown(form, |book.orders|) && r.next == Stay
    ensures key == Backspace ==> r.form == Erase(form) && r.next == Stay
    ensures key.Char? && (IsSideChar(key.c) || IsEntryChar(key.c)) ==> r.form == TypeChar(form, key.c) && r.next == Stay
    ensures key == Other ==> r == Outcome(form, book, Unchanged, false, Stay)
  {
    var same := Outcome(form, book, Unchanged, false, Stay);
    match key
    case Up => same.(form := MoveUp(form))
    case Down => same.(form := MoveDown(form, |book.orders|))
    case Backspace => same.(form := Erase(form))
    case Enter => if form.field == SubmitField then Submit(form, book, symbol, parse) else same
    case Char(c) =>
      if IsSideChar(c) || IsEntryChar(c) then same.(form := TypeChar(form, c))
      else if c == 'c' then (if form.orderIndex < |book.orders| then same.(next := OpenOptions) else same)
      else if c == 'r' || c == 'R' then same.(next := OpenFullscreen)
      else if c == 'q' then same.(next := Leave)
      else same
    case Other => same
  }

  // ---------------------------------------------------------------------------
  // The order editor
  // ---------------------------------------------------------------------------

  /**
   Opening the editor on `order` fills the trading screen's own form: the order's
   side, its amount and price as text (through `show`, Python's `str` of a float),
   empty take-profit and stop-loss (orders never store them), cursor on the type row.
   */
  function StartEdit(form: Form, order: Order, show: real -> string): (r: Form)
    ensures r.field == 0 && r.orderIndex == form.orderIndex
    ensures r.side == order.side && r.qty == show(order.amount) && r.price == show(order.price)
    ensures r.tp == [] && r.sl == []
  {
    Form(0, order.side, show(order.amount), show(order.price), [], [], form.orderIndex)
  }

  /**
   One key in the order editor for `order`. The cursor moves over the six rows
   only. Enter on the submit row with a type, a quantity and a price edits the
   order (see `Ledger.EditOrder`), empties the texts, asks for invalidation
   whatever the edit's outcome, and closes the editor; without them only the
   status changes. `q` empties the texts and closes the editor.
   */
  function EditStep(form: Form, book: Book, order: Order, symbols: seq<string>, current: int,
                    key: Key, parse: string -> Option<real>): (r: Outcome)
    ensures key != Enter ==> r.book == book && r.status == Unchanged && !r.invalidate
    ensures key == Up ==> r.form == form.(field := if form.field > 0 then form.field - 1 else form.field)
    ensures key == Down ==> r.form == form.(field := if form.field < SubmitField then form.field + 1 else form.field)
    ensures key == Enter && form.field == SubmitField && Filled(form) ==>
              var edited := EditOrder(book, order, form.side, form.qty, form.price, symbols, current, parse);
              && r.book == edited.book && r.form == ClearEntries(form) && r.invalidate && r.next == Leave
              && (r.status.Succeeded? <==> edited.error.None?)
    ensures key == Enter && form.field == SubmitField && !Filled(form) ==> r == Outcome(form, book, PleaseFill, false, Stay)
    ensures key == Enter && form.field != SubmitField ==> r == Outcome(form, book, Unchanged, false, Stay)
    ensures key == Char('q') ==> r.form == ClearEntries(form) && r.next == Leave
    ensures key == Backspace ==> r.form == Erase(form) && r.next == Stay
    ensures key.Char? && (IsSideChar(key.c) || IsEntryChar(key.c)) ==> r.form == TypeChar(form, key.c) && r.next == Stay
    ensures r.next == Leave <==> key == Char('q') || (key == Enter && form.field == SubmitField && Filled(form))
    ensures r.next == Stay || r.next == Leave
  {
    var same := Outcome(form, book, Unchanged, false, Stay);
    match key
    case Up => same.(form := if form.field > 0 then form.(field := form.field - 1) else form)
    case Down => same.(form := if form.field < SubmitField then form.(field := form.field + 1) else form)
    case Backspace => same.(form := Erase(form))
    case Enter =>
      if form.field != SubmitField then same
      else if !Filled(form) then same.(status := PleaseFill)
      else
        var edited := EditOrder(book, order, form.side, form.qty, form.price, symbols, current, parse);
        var status := match edited.error
          case None => Succeeded(form.side, At(symbols, current).value)
          case Some(e) => Failed(e);
        Outcome(ClearEntries(form), edited.book, status, true, Leave)
    case Char(c) =>
      if IsSideChar(c) || IsEntryChar(c) then same.(form := TypeChar(form, c))
      else if c == 'q' then same.(form := ClearEntries(form), next := Leave)
      else same
    case Other => same
  }

  // ---------------------------------------------------------------------------
  // The options menu for the highlighted order
  // ---------------------------------------------------------------------------

  /** The menu rows: edit order, delete order, delete all, cancel. */
  const OptionCount: nat := 4

  /** After a key in the options menu: still browsing at a row, opening the editor, or closed with the ledger as it now stands. */
  datatype OptionsOutcome = Browse(index: int) | BeginEdit | Finish(book: Book, invalidate: bool)

  /**
   One key in the options menu for `order`. Up and Down move the highlight
   cyclically; Enter runs the highlighted row; `q` closes the menu.
   */
  function OptionsStep(index: int, key: Key, book: Book, order: Order): (r: OptionsOutcome)
    ensures key == Up || key == Down ==> r.Browse? && 0 <= r.index < OptionCount
    ensures key == Up ==> r == Browse(Mod(index - 1, OptionCount).value)
    ensures key == Down ==> r == Browse(Mod(index + 1, OptionCount).value)
    ensures key == Enter && index == 0 ==> r == BeginEdit
    ensures key == Enter && index == 1 ==> r == Finish(DeleteOrder(book, order), true)
    ensures key == Enter && index == 2 ==> r == Finish(Book(book.balance, []), true)
    ensures key == Enter && index != 0 && index != 1 && index != 2 ==> r == Finish(book, false)
    ensures key == Char('q') ==> r == Finish(book, false)
    ensures r.Finish? ==> r.book.balance == book.balance
  {
    match key
    case Up => Browse(Mod(index - 1, OptionCount).value)
    case Down => Browse(Mod(index + 1, OptionCount).value)
    case Enter =>
      if index == 0 then BeginEdit
      else if index == 1 then Finish(DeleteOrder(book, order), true)
      else if index == 2 then Finish(DeleteAll(book), true)
      else Finish(book, false)
    case Char(c) => if c == 'q' then Finish(book, false) else Browse(index)
    case _ => Browse(index)
  }

  // ---------------------------------------------------------------------------
  // Properties
  // ---------------------------------------------------------------------------

  /** Every key on the trading screen keeps the form's invariant. */
  lemma TradingStepKeepsValid(form: Form, book: Book, symbol: string, key: Key, parse: string -> Option<real>)
    requires Valid(form)
    ensures Valid(TradingStep(form, book, symbol, key, parse).form)
  {
  }

  /** The side changes only on the type row, or when a submission empties it. */
  lemma SideChangesOnlyOnTypeRow(form: Form, book: Book, symbol: string, key: Key, parse: string -> Option<real>)
    ensures var r := TradingStep(form, book, symbol, key, parse);
            r.form.side != form.side ==> form.field == 0 || (key == Enter && form.field == SubmitField && r.form.side == [])
  {
  }

  /** The take-profit and stop-loss texts never reach the ledger: an order placed from the form is the same whatever they hold. */
  lemma TpSlIgnored(form: Form, book: Book, symbol: string, tp: string, sl: string, parse: string -> Option<real>)
    ensures Submit(form.(tp := tp, sl := sl), book, symbol, parse).book == Submit(form, book, symbol, parse).book
  {
  }

  /** Typing a digit or `.` into an entry row and then pressing Backspace gives back the form. */
  lemma TypeThenErase(form: Form, book: Book, symbol: string, c: char, parse: string -> Option<real>)
    requires 1 <= form.field <= 4 && IsEntryChar(c)
    ensures var typed := TradingStep(form, book, symbol, Char(c), parse).form;
            TradingStep(typed, book, symbol, Backspace, parse).form == form
  {
    var t := EntryText(form, form.field);
    var typed := TypeChar(form, c);
    assert EntryText(typed, form.field) == t + [c];
    assert (t + [c])[..|t|] == t;
  }

  /** In the order editor too, typing a digit or `.` into an entry row and then pressing Backspace gives back the form. */
  lemma EditTypeThenErase(form: Form, book: Book, order: Order, symbols: seq<string>, current: int,
                          c: char, parse: string -> Option<real>)
    requires 1 <= form.field <= 4 && IsEntryChar(c)
    ensures var typed := EditStep(form, book, order, symbols, current, Char(c), parse);
            && typed.next == Stay
            && EditStep(typed.form, book, order, symbols, current, Backspace, parse).form == form
  {
    var t := EntryText(form, form.field);
    var typed := TypeChar(form, c);
    assert EntryText(typed, form.field) == t + [c];
    assert (t + [c])[..|t|] == t;
  }

  /** The editor edits its texts exactly as the trading screen does: Backspace and the typing keys have the same effect on the form in both. */
  lemma EditorTypesLikeTradingScreen(form: Form, book: Book, order: Order, symbols: seq<string>, current: int,
                                     symbol: string, key: Key, parse: string -> Option<real>)
    requires key == Backspace || (key.Char? && (IsSideChar(key.c) || IsEntryChar(key.c)))
    ensures var e := EditStep(form, book, order, symbols, current, key, parse);
            var t := TradingStep(form, book, symbol, key, parse);
            e.form == t.form && e.next == t.next == Stay && e.book == t.book == book
  {
  }

  /** Choosing a side on an empty type row and pressing Backspace gives back the form. */
  lemma ChooseSideThenErase(form: Form, book: Book, symbol: string, c: char, parse: string -> Option<real>)
    requires form.field == 0 && form.side == [] && IsSideChar(c)
    ensures var typed := TradingStep(form, book, symbol, Char(c), parse).form;
            TradingStep(typed, book, symbol, Backspace, parse).form == form
  {
  }

  /** Below the type row, Up then Down returns the cursor; above the submit row, Down then Up does. */
  lemma UpDownCancel(form: Form, book: Book, symbol: string, parse: string -> Option<real>)
    ensures 0 < form.field <= SubmitField ==>
              TradingStep(TradingStep(form, book, symbol, Up, parse).form, book, symbol, Down, parse).form == form
    ensures 0 <= form.field < SubmitField ==>
              TradingStep(TradingStep(form, book, symbol, Down, parse).form, book, symbol, Up, parse).form == form
  {
  }

  /**
   On the type row Up walks the open orders instead, and Down then moves the
   row, so the two do not cancel there.
   */
  lemma UpDownOnTypeRow(form: Form, book: Book, symbol: string, parse: string -> Option<real>)
    requires form.field == 0 && form.orderIndex > 0
    ensures var r := TradingStep(TradingStep(form, book, symbol, Up, parse).form, book, symbol, Down, parse).form;
            r.field == 1 && r.orderIndex == form.orderIndex - 1
  {
  }

  /**
   Submitting a filled form whose texts parse appends exactly that one order to the
   ledger, even when placing it fails, and the form's texts are emptied.
   */
  lemma SubmitAppendsOneOrder(form: Form, book: Book, symbol: string, parse: string -> Option<real>, q: real, p: real)
    requires form.field == SubmitField && Filled(form)
    requires parse(form.qty) == Some(q) && parse(form.price) == Some(p)
    ensures var r := TradingStep(form, book, symbol, Enter, parse);
            && r.book.orders == book.orders + [Order(form.side, q, p, symbol)]
            && r.form.side == [] && r.form.qty == [] && r.form.price == []
  {
    var r := TradingStep(form, book, symbol, Enter, parse);
    assert EntryText(r.form, 1) == [] && EntryText(r.form, 2) == [];
  }

  /**
   Opening the editor and submitting at once, with texts that parse back to the
   order's amount and price, removes the order and places an equal one at the
   end, on the selected symbol: the ledger is charged a second time.
   */
  lemma ResubmitUnchanged(form: Form, book: Book, order: Order, show: real -> string, parse: string -> Option<real>,
                          symbols: seq<string>, current: int)
    requires order.side != [] && show(order.amount) != [] && show(order.price) != []
    requires parse(Strip(show(order.amount))) == Some(order.amount) && parse(Strip(show(order.price))) == Some(order.price)
    requires 0 <= current < |symbols| && symbols[current] == order.symbol
    ensures var start := StartEdit(form, order, show).(field := SubmitField);
            var r := EditStep(start, book, order, symbols, current, Enter, parse);
            r.book.orders[..|r.book.orders| - 1] == RemoveFirst(book.orders, order)
            && r.book.orders[|r.book.orders| - 1] == order
            && r.book == PlaceLimitOrder(Book(book.balance, RemoveFirst(book.orders, order)), order.side, order.amount, order.price, order.symbol).book
  {
    var kept := Book(book.balance, RemoveFirst(book.orders, order));
    var placed := PlaceLimitOrder(kept, order.side, order.amount, order.price, order.symbol);
    assert placed.book.orders == kept.orders + [order];
  }

  /** Up then Down in the options menu returns the highlight to its row. */
  lemma OptionsUpDownCancel(index: int, book: Book, order: Order)
    requires 0 <= index < OptionCount
    ensures var up := OptionsStep(index, Up, book, order);
            OptionsStep(up.index, Down, book, order) == Browse(index)
  {
    ModStepsCancel(index, OptionCount);
  }
}

=== FILE: ledger.dfy ===
/**
 The simulated ledger: a balance per currency and the list of open orders.
 Placing a limit order records it and moves the balances at once, as if it had
 filled; editing and deleting orders never undo an earlier balance move.
 */
module Ledger {
  import opened Py

  /** An open order as stored: side, amount, price and symbol; take-profit and stop-loss are never stored. */
  datatype Order = Order(side: string, amount: real, price: real, symbol: string)

  /** Currency name to quantity held. */
  type Balance = map<string, real>

  /** Balances together with the open orders, in placement order. */
  datatype Book = Book(balance: Balance, orders: seq<Order>)

  /** The book a placement left behind and the exception that interrupted it, if any. */
  datatype Placed = Placed(book: Book, error: Option<PyError>)

  const QuoteCurrency: string := "USDT"
  const StartingQuote: real := 1000.0
  const DefaultSymbols: seq<string> := ["BTC/USDT", "ETH/USDT", "LTC/USDT"]

  /** `balance.get(c, 0)` */
  function Held(b: Balance, c: string): real {
    if c in b then b[c] else 0.0
  }

  /** How much order `o` moves the balance of currency `c` when it is placed: a buy pays `amount * price` of the quote and receives `amount` of the base, a sell the reverse, any other side nothing. */
  function Delta(o: Order, c: string): real {
    match SplitPair(o.symbol, '/')
    case None => 0.0
    case Some((base, quote)) =>
      var q := if o.side == "b" then -(o.amount * o.price) else if o.side == "s" then o.amount * o.price else 0.0;
      var b := if o.side == "b" then o.amount else if o.side == "s" then -o.amount else 0.0;
      (if c == quote then q else 0.0) + (if c == base then b else 0.0)
  }

  /** The currency whose missing entry makes a placement raise `KeyError`: the quote, for buys and sells. */
  predicate Trades(side: string) {
    side == "b" || side == "s"
  }

  /** The base currency of a symbol that splits, the empty string otherwise. */
  function Base(symbol: string): string {
    match SplitPair(symbol, '/')
    case None => ""
    case Some((base, _)) => base
  }

  /** The base currencies of `symbols`, in order. */
  function Bases(symbols: seq<string>): (r: seq<string>)
    ensures |r| == |symbols| && forall i :: 0 <= i < |r| ==> r[i] == Base(symbols[i])
  {
    if symbols == [] then [] else [Base(symbols[0])] + Bases(symbols[1..])
  }

  /** `for symbol in symbols: base, _ = symbol.split('/'); balance[base] = 0`, raising on the first symbol that does not split. */
  function ZeroBases(b: Balance, symbols: seq<string>): (r: Option<Balance>)
    decreases |symbols|
    ensures r.Some? <==> forall i :: 0 <= i < |symbols| ==> SplitPair(symbols[i], '/').Some?
    ensures r.Some? ==> forall c :: c in r.value <==> c in b || c in Bases(symbols)
    ensures r.Some? ==> forall c :: c in Bases(symbols) ==> r.value[c] == 0.0
    ensures r.Some? ==> forall c :: c in b && c !in Bases(symbols) ==> r.value[c] == b[c]
  {
    if symbols == [] then Some(b)
    else match SplitPair(symbols[0], '/')
      case None => None
      case Some((base, _)) =>
        var r := ZeroBases(b[base := 0.0], symbols[1..]);
        assert Bases(symbols) == [base] + Bases(symbols[1..]);
        assert r.Some? <==> forall i :: 0 <= i < |symbols| ==> SplitPair(symbols[i], '/').Some? by {
          forall i | 0 < i < |symbols| ensures symbols[i] == symbols[1..][i - 1] { }
        }
        r
  }

  /** The startup balance: 1000 of the quote currency, then a zero entry for the base of every tracked symbol. */
  function InitialBalance(symbols: seq<string>): (r: Option<Balance>)
    ensures r.Some? <==> forall i :: 0 <= i < |symbols| ==> SplitPair(symbols[i], '/').Some?
    ensures r.Some? ==> forall c :: c in r.value <==> c == QuoteCurrency || c in Bases(symbols)
    ensures r.Some? ==> forall c :: c in Bases(symbols) ==> r.value[c] == 0.0
    ensures r.Some? && QuoteCurrency !in Bases(symbols) ==> r.value[QuoteCurrency] == StartingQuote
  {
    ZeroBases(map[QuoteCurrency := StartingQuote], symbols)
  }

  /** Three symbols over one quote, as in the default watch list, give that quote 1000 and each base 0. */
  lemma InitialBalanceOfThree(b1: string, b2: string, b3: string, quote: string)
    requires '/' !in b1 && '/' !in b2 && '/' !in b3 && '/' !in quote
    requires QuoteCurrency !in [b1, b2, b3]
    ensures InitialBalance([b1 + "/" + quote, b2 + "/" + quote, b3 + "/" + quote])
            == Some(map[QuoteCurrency := StartingQuote, b1 := 0.0, b2 := 0.0, b3 := 0.0])
  {
    var symbols := [b1 + "/" + quote, b2 + "/" + quote, b3 + "/" + quote];
    BaseOfPair(b1, quote);
    BaseOfPair(b2, quote);
    BaseOfPair(b3, quote);
    var bases := Bases(symbols);
    assert bases[0] == b1 && bases[1] == b2 && bases[2] == b3;
    assert bases == [b1, b2, b3];
    var r := InitialBalance(symbols);
    assert r.Some?;
    var expected := map[QuoteCurrency := StartingQuote, b1 := 0.0, b2 := 0.0, b3 := 0.0];
    forall c ensures c in r.value <==> c in expected {
    }
    assert r.value.Keys == expected.Keys;
    assert QuoteCurrency !in bases;
    forall c | c in r.value ensures r.value[c] == expected[c] {
      if c in bases { assert r.value[c] == 0.0; assert expected[c] == 0.0; }
      else { assert c == QuoteCurrency; assert r.value[c] == StartingQuote; assert expected[c] == StartingQuote; }
    }
    assert r.value == expected;
  }

  /** The base of `"BASE/QUOTE"` is `BASE`. */
  lemma BaseOfPair(base: string, quote: string)
    requires '/' !in base && '/' !in quote
    ensures Base(base + "/" + quote) == base
    ensures SplitPair(base + "/" + quote, '/') == Some((base, quote))
  {
    SplitPairOfJoined(base, quote, '/');
  }

  /**
   Place a simulated limit order. The order is appended first, so it stays even when
   the symbol does not split into base and quote (`ValueError`) or, for a buy or a
   sell, the quote currency has no balance entry (`KeyError`); in both cases the
   balances are untouched. Otherwise a buy or a sell moves the balances by the
   order's `Delta`, creating the base entry if needed, with no check that the
   balance suffices. Any other side only records the order.
   */
  function PlaceLimitOrder(book: Book, side: string, amount: real, price: real, symbol: string): (r: Placed)
    ensures r.book.orders == book.orders + [Order(side, amount, price, symbol)]
    ensures SplitPair(symbol, '/').None? ==> r.error == Some(ValueError(symbol)) && r.book.balance == book.balance
    ensures SplitPair(symbol, '/').Some? && Trades(side) && SplitPair(symbol, '/').value.1 !in book.balance ==>
              r.error == Some(KeyError(SplitPair(symbol, '/').value.1)) && r.book.balance == book.balance
    ensures SplitPair(symbol, '/').Some? && !Trades(side) ==> r.error.None? && r.book.balance == book.balance
    ensures r.error.None? <==> SplitPair(symbol, '/').Some? && (Trades(side) ==> SplitPair(symbol, '/').value.1 in book.balance)
    ensures r.error.Some? ==> r.book.balance == book.balance
    ensures r.error.None? && Trades(side) ==> r.book.balance.Keys == book.balance.Keys + {SplitPair(symbol, '/').value.0}
    ensures r.error.None? ==> forall c :: Held(r.book.balance, c) == Held(book.balance, c) + Delta(Order(side, amount, price, symbol), c)
  {
    var o := Order(side, amount, price, symbol);
    var orders := book.orders + [o];
    match SplitPair(symbol, '/')
    case None => Placed(Book(book.balance, orders), Some(ValueError(symbol)))
    case Some((base, quote)) =>
      if !Trades(side) then Placed(Book(book.balance, orders), None)
      else if quote !in book.balance then Placed(Book(book.balance, orders), Some(KeyError(quote)))
      else Placed(Book(Settle(book.balance, o, base, quote), orders), None)
  }

  /** The two balance writes of a buy or a sell: first the quote entry, then the base entry read back with a default of 0. */
  function Settle(b: Balance, o: Order, base: string, quote: string): (r: Balance)
    requires Trades(o.side) && quote in b && SplitPair(o.symbol, '/') == Some((base, quote))
    ensures r.Keys == b.Keys + {base}
    ensures forall c :: Held(r, c) == Held(b, c) + Delta(o, c)
  {
    var paid := if o.side == "b" then b[quote] - o.amount * o.price else b[quote] + o.amount * o.price;
    var b1 := b[quote := paid];
    var got := if o.side == "b" then Held(b1, base) + o.amount else Held(b1, base) - o.amount;
    b1[base := got]
  }

  /**
   Edit an order: remove the first order equal to `target` (nothing happens if there is
   none), parse the quantity and price text, look up the currently selected symbol,
   and place a new order there. The removed order's balance move is not reversed.
   Each step can raise; the removal stands whatever happens after it.
   */
  function EditOrder(book: Book, target: Order, side: string, qtyText: string, priceText: string,
                     symbols: seq<string>, current: int, parse: string -> Option<real>): (r: Placed)
    ensures var kept := RemoveFirst(book.orders, target);
            var q, p, sym := parse(Strip(qtyText)), parse(Strip(priceText)), At(symbols, current);
            if q.Some? && p.Some? && sym.Some? then r.book.orders == kept + [Order(side, q.value, p.value, sym.value)]
            else r.book.orders == kept
    ensures r.error.Some? ==> r.book.balance == book.balance
    ensures parse(Strip(qtyText)).None? ==> r == Placed(Book(book.balance, RemoveFirst(book.orders, target)), Some(ValueError(Strip(qtyText))))
    ensures At(symbols, current).None? ==> r == Placed(Book(book.balance, RemoveFirst(book.orders, target)), r.error) && r.error.Some?
    ensures r.error.None? ==>
              && |r.book.orders| > 0
              && var o := r.book.orders[|r.book.orders| - 1];
              && o.side == side && Some(o.symbol) == At(symbols, current)
              && Some(o.amount) == parse(Strip(qtyText)) && Some(o.price) == parse(Strip(priceText))
              && Moved(book.balance, r.book.balance, o)
  {
    var removed := Book(book.balance, RemoveFirst(book.orders, target));
    match parse(Strip(qtyText))
    case None => Placed(removed, Some(ValueError(Strip(qtyText))))
    case Some(q) =>
      match parse(Strip(priceText))
      case None => Placed(removed, Some(ValueError(Strip(priceText))))
      case Some(p) =>
        match At(symbols, current)
        case None => Placed(removed, Some(IndexError))
        case Some(sym) =>
          var r := PlaceLimitOrder(removed, side, q, p, sym);
          assert r.book.orders[..|removed.orders|] == removed.orders;
          r
  }

  /** Every currency's balance in `after` is its balance in `before` moved by order `o`'s `Delta`. */
  ghost predicate Moved(before: Balance, after: Balance, o: Order) {
    forall c :: Held(after, c) == Held(before, c) + Delta(o, c)
  }

  /** Delete one order: the first equal one goes, if any; balances are untouched. */
  function DeleteOrder(book: Book, o: Order): (r: Book)
    ensures r.balance == book.balance
    ensures multiset(r.orders) == multiset(book.orders) - multiset{o}
    ensures o in book.orders ==> |r.orders| == |book.orders| - 1
    ensures o !in book.orders ==> r == book
    ensures r.orders == RemoveFirst(book.orders, o)
  {
    Book(book.balance, RemoveFirst(book.orders, o))
  }

  /** Delete all orders; balances are untouched. */
  function DeleteAll(book: Book): (r: Book)
    ensures r.balance == book.balance && |r.orders| == 0
  {
    Book(book.balance, [])
  }

  // ---------------------------------------------------------------------------
  // Properties relating several operations
  // ---------------------------------------------------------------------------

  /** A buy followed by a sell of the same amount at the same price leaves every balance where it was. */
  lemma BuyThenSellRestores(book: Book, amount: real, price: real, symbol: string)
    requires SplitPair(symbol, '/').Some? && SplitPair(symbol, '/').value.1 in book.balance
    ensures var b := PlaceLimitOrder(book, "b", amount, price, symbol);
            var s := PlaceLimitOrder(b.book, "s", amount, price, symbol);
            && b.error.None? && s.error.None?
            && s.book.orders == book.orders + [Order("b", amount, price, symbol), Order("s", amount, price, symbol)]
            && forall c :: Held(s.book.balance, c) == Held(book.balance, c)
  {
    var b := PlaceLimitOrder(book, "b", amount, price, symbol);
    var s := PlaceLimitOrder(b.book, "s", amount, price, symbol);
    forall c
      ensures Held(s.book.balance, c) == Held(book.balance, c)
    {
      assert Delta(Order("b", amount, price, symbol), c) + Delta(Order("s", amount, price, symbol), c) == 0.0;
    }
  }

  /** Buying 1 at 100 from a quote of 1000, then selling 0.5 at 200, ends at a quote of 1000 and a base of 0.5. */
  lemma BuyThenSellExample(base: string, quote: string)
    requires '/' !in base && '/' !in quote && base != quote
    ensures var symbol := base + "/" + quote;
            var start := Book(map[quote := 1000.0, base := 0.0], []);
            var b := PlaceLimitOrder(start, "b", 1.0, 100.0, symbol);
            var s := PlaceLimitOrder(b.book, "s", 0.5, 200.0, symbol);
            && b.book == Book(map[quote := 900.0, base := 1.0], [Order("b", 1.0, 100.0, symbol)])
            && s.book.balance == map[quote := 1000.0, base := 0.5]
            && |s.book.orders| == 2
  {
    BaseOfPair(base, quote);
  }

  /** Nothing checks that the balance suffices: buying for more than is held drives the quote negative. */
  lemma OverdraftAllowed(base: string, quote: string)
    requires '/' !in base && '/' !in quote && base != quote
    ensures var b := PlaceLimitOrder(Book(map[quote := 1000.0], []), "b", 2.0, 600.0, base + "/" + quote);
            b.error.None? && b.book.balance == map[quote := -200.0, base := 2.0]
  {
    BaseOfPair(base, quote);
  }

  /**
   Editing an order re-places it without refunding it: after buying 1 at 100 and
   editing that order into the same buy, the ledger has paid twice.
   */
  lemma EditDoesNotRefund(base: string, quote: string, qtyText: string, priceText: string, parse: string -> Option<real>)
    requires '/' !in base && '/' !in quote && base != quote
    requires parse(Strip(qtyText)) == Some(1.0) && parse(Strip(priceText)) == Some(100.0)
    ensures var symbol := base + "/" + quote;
            var start := Book(map[quote := 1000.0, base := 0.0], []);
            var b := PlaceLimitOrder(start, "b", 1.0, 100.0, symbol);
            var e := EditOrder(b.book, Order("b", 1.0, 100.0, symbol), "b", qtyText, priceText, [symbol], 0, parse);
            && e.error.None?
            && e.book.orders == [Order("b", 1.0, 100.0, symbol)]
            && e.book.balance == map[quote := 800.0, base := 2.0]
  {
    BaseOfPair(base, quote);
  }

  /** Deleting every order after a placement keeps the balance the placement produced. */
  lemma DeleteKeepsBalanceEffect(book: Book, side: string, amount: real, price: real, symbol: string)
    requires PlaceLimitOrder(book, side, amount, price, symbol).error.None?
    ensures var p := PlaceLimitOrder(book, side, amount, price, symbol);
            var d := DeleteOrder(p.book, Order(side, amount, price, symbol));
            && multiset(d.orders) == multiset(book.orders)
            && forall c :: Held(d.balance, c) == Held(book.balance, c) + Delta(Order(side, amount, price, symbol), c)
  {
  }
}

=== FILE: plot_cache.dfy ===
/**
 The chart cache: rendered rows are kept per (symbol, exact mode, height, width)
 together with the time they were built and the close of the window's last
 candle, and are handed back unchanged for 30 seconds. The clock is the `now`
 parameter.

 The cache is a Python dictionary keyed by tuples, so a key may be a 4-tuple (the
 only shape the builder writes) or a 2-tuple (the shape the invalidation calls
 pop). Both shapes are kept in the key type so that those calls can be modelled
 as written.
 */
module PlotCache {
  import opened Py
  import opened Chart

  datatype Key =
    | Key4(symbol: string, exact: bool, height: int, width: int)
    | Key2(symbol: string, exact: bool)

  /** A cached chart: its rows, when it was built, and the close of its window's last candle. */
  datatype Entry = Entry(lines: seq<string>, ts: real, lastClose: Option<real>)

  type Cache = map<Key, Entry>

  /** Seconds a cached chart stays valid. */
  const RefreshInterval: real := 30.0

  /** Whether the plotting library could be imported, and if so its rasteriser. */
  datatype Plotext = NotInstalled | Installed(raster: PlotSpec -> Captured)

  /** The close of the last candle, or `None` for an empty window. */
  function LastClose(cs: seq<Candle>): (r: Option<real>)
    ensures r.None? <==> cs == []
    ensures r.Some? ==> r.value == cs[|cs| - 1].close
  {
    if cs == [] then None else Some(cs[|cs| - 1].close)
  }

  /** An entry that may be reused at time `now`. */
  predicate Fresh(cache: Cache, key: Key, now: real) {
    key in cache && now - cache[key].ts < RefreshInterval
  }

  /** Every key is a 4-tuple, as every key the builder writes is. */
  predicate WellKeyed(cache: Cache) {
    forall k :: k in cache ==> k.Key4?
  }

  /**
   `build_plot_lines`: reuse a fresh entry for the same 4-tuple key; otherwise build
   the rows (a single explanatory row when the plotting library is missing, then
   with no last close) and store them stamped with `now`. Returns the rows and the
   updated cache.
   */
  function BuildPlotLines(cache: Cache, now: real, plotext: Plotext, fmt: int -> string,
                          symbol: string, cs: seq<Candle>, height: int, width: int, exact: bool): (r: (seq<string>, Cache))
    ensures var key := Key4(symbol, exact, height, width);
            Fresh(cache, key, now) ==> r == (cache[key].lines, cache)
    ensures var key := Key4(symbol, exact, height, width);
            !Fresh(cache, key, now) ==>
              && r.1.Keys == cache.Keys + {key}
              && r.1[key].lines == r.0 && r.1[key].ts == now
              && r.1[key].lastClose == (if plotext.NotInstalled? then None else LastClose(cs))
              && (forall k :: k in cache && k != key ==> r.1[k] == cache[k])
    ensures plotext.NotInstalled? && !Fresh(cache, Key4(symbol, exact, height, width), now) ==> r.0 == ["plotext not installed"]
    ensures plotext.Installed? && !Fresh(cache, Key4(symbol, exact, height, width), now) ==>
              r.0 == ChartRows(cs, height, width, exact, plotext.raster, fmt)
  {
    var key := Key4(symbol, exact, height, width);
    if Fresh(cache, key, now) then (cache[key].lines, cache)
    else match plotext
      case NotInstalled =>
        var lines := ["plotext not installed"];
        (lines, cache[key := Entry(lines, now, None)])
      case Installed(raster) =>
        var lines := ChartRows(cs, height, width, exact, raster, fmt);
        (lines, cache[key := Entry(lines, now, LastClose(cs))])
  }

  /** `cached_plot_lines.pop(key, None)` */
  function Pop(cache: Cache, key: Key): (r: Cache)
    ensures r.Keys == cache.Keys - {key}
    ensures forall k :: k in r ==> r[k] == cache[k]
  {
    cache - {key}
  }

  /** The invalidation the trading screen performs: pop `(symbol, False)` and `(symbol, True)`. */
  function PopPairs(cache: Cache, symbol: string): Cache {
    Pop(Pop(cache, Key2(symbol, false)), Key2(symbol, true))
  }

  /** `cached_plot_lines.clear()`, done when the selected symbol moves. */
  function Clear(cache: Cache): (r: Cache)
    ensures |r| == 0
  {
    map[]
  }

  /** Drop every entry for `symbol`, whatever its mode and size. */
  function InvalidateSymbol(cache: Cache, symbol: string): (r: Cache)
    ensures forall k :: k in r <==> k in cache && k.symbol != symbol
    ensures forall k :: k in r ==> r[k] == cache[k]
  {
    map k | k in cache && k.symbol != symbol :: cache[k]
  }

  // ---------------------------------------------------------------------------
  // Properties
  // ---------------------------------------------------------------------------

  /** The builder only ever writes 4-tuple keys. */
  lemma BuildKeepsWellKeyed(cache: Cache, now: real, plotext: Plotext, fmt: int -> string,
                            symbol: string, cs: seq<Candle>, height: int, width: int, exact: bool)
    requires WellKeyed(cache)
    ensures WellKeyed(BuildPlotLines(cache, now, plotext, fmt, symbol, cs, height, width, exact).1)
  {
  }

  /** On a cache the builder filled, popping the 2-tuple keys changes nothing: the invalidation calls are no-ops. */
  lemma PopPairsIsNoop(cache: Cache, symbol: string)
    requires WellKeyed(cache)
    ensures PopPairs(cache, symbol) == cache
  {
    assert Key2(symbol, false) !in cache && Key2(symbol, true) !in cache;
  }

  /**
   Once a build has rendered rows, a second build for the same key within 30
   seconds returns exactly those rows and leaves the cache as the first left it,
   whatever candles it is given.
   */
  lemma SecondCallHits(cache: Cache, t1: real, t2: real, plotext: Plotext, fmt: int -> string,
                       symbol: string, cs1: seq<Candle>, cs2: seq<Candle>, height: int, width: int, exact: bool)
    requires !Fresh(cache, Key4(symbol, exact, height, width), t1)
    requires t1 <= t2 < t1 + RefreshInterval
    ensures var first := BuildPlotLines(cache, t1, plotext, fmt, symbol, cs1, height, width, exact);
            var second := BuildPlotLines(first.1, t2, plotext, fmt, symbol, cs2, height, width, exact);
            second == (first.0, first.1)
  {
    var key := Key4(symbol, exact, height, width);
    var first := BuildPlotLines(cache, t1, plotext, fmt, symbol, cs1, height, width, exact);
    assert Fresh(first.1, key, t2);
  }

  /**
   The invalidation as written leaves stale rows in place: rows built from one
   window are still returned one second later for a different window, even after
   `PopPairs`.
   */
  lemma PopPairsLeavesStaleRows(cache: Cache, t: real, raster: PlotSpec -> Captured, fmt: int -> string,
                                symbol: string, cs1: seq<Candle>, cs2: seq<Candle>, height: int, width: int, exact: bool)
    requires WellKeyed(cache) && !Fresh(cache, Key4(symbol, exact, height, width), t)
    ensures var first := BuildPlotLines(cache, t, Installed(raster), fmt, symbol, cs1, height, width, exact);
            var second := BuildPlotLines(PopPairs(first.1, symbol), t + 1.0, Installed(raster), fmt, symbol, cs2, height, width, exact);
            second.0 == first.0
  {
    var first := BuildPlotLines(cache, t, Installed(raster), fmt, symbol, cs1, height, width, exact);
    BuildKeepsWellKeyed(cache, t, Installed(raster), fmt, symbol, cs1, height, width, exact);
    PopPairsIsNoop(first.1, symbol);
    SecondCallHits(cache, t, t + 1.0, Installed(raster), fmt, symbol, cs1, cs2, height, width, exact);
  }

  /**
   After dropping a symbol's entries the next build renders the given window
   afresh, and entries of other symbols are kept.
   */
  lemma InvalidateSymbolForcesRebuild(cache: Cache, now: real, raster: PlotSpec -> Captured, fmt: int -> string,
                                      symbol: string, cs: seq<Candle>, height: int, width: int, exact: bool)
    ensures var c := InvalidateSymbol(cache, symbol);
            var r := BuildPlotLines(c, now, Installed(raster), fmt, symbol, cs, height, width, exact);
            && r.0 == ChartRows(cs, height, width, exact, raster, fmt)
            && r.1[Key4(symbol, exact, height, width)] == Entry(r.0, now, LastClose(cs))
            && (forall k :: k in cache && k.symbol != symbol ==> k in r.1 && r.1[k] == cache[k])
  {
  }

  /** Clearing forces the next build, whatever the key. */
  lemma ClearForcesRebuild(cache: Cache, now: real, raster: PlotSpec -> Captured, fmt: int -> string,
                           symbol: string, cs: seq<Candle>, height: int, width: int, exact: bool)
    ensures BuildPlotLines(Clear(cache), now, Installed(raster), fmt, symbol, cs, height, width, exact).0
            == ChartRows(cs, height, width, exact, raster, fmt)
  {
  }
}

=== FILE: py.dfy ===
/**
 The handful of Python value and text semantics the bot relies on, stated once so
 that every other module uses the same meaning: `None`, the exceptions that the
 modelled code raises or catches, `str.strip()`, slicing with negative indices,
 `str.split('/')` unpacked into two names, `" ".join`, `" " * n` and
 `list.remove`.
 */
module Py {

  /** Python's `None` or a present value. */
  datatype Option<T> = None | Some(value: T)

  /** The exceptions the modelled code can raise; each carries what it complained about. */
  datatype PyError =
    | ValueError(text: string)   // float('...') failed, or split('/') did not give two parts
    | KeyError(key: string)      // dict[key] on a missing key
    | IndexError                 // list[i] out of range
    | ZeroDivisionError          // i % n with n == 0

  /** A computation that either gives a value or raises. */
  datatype Result<T> = Ok(value: T) | Err(error: PyError)

  /**
   `i % n` for a divisor that is a list length: `ZeroDivisionError` for an empty
   list, otherwise the remainder Python gives, which for a positive divisor lies
   in `0..n` and is `i` itself there (`ModUnique` pins it down everywhere else).
   */
  function Mod(i: int, n: nat): (r: Result<int>)
    ensures r.Err? <==> n == 0
    ensures r.Err? ==> r.error == ZeroDivisionError
    ensures r.Ok? ==> 0 <= r.value < n
    ensures r.Ok? && 0 <= i < n ==> r.value == i
  {
    if n == 0 then Err(ZeroDivisionError) else Ok(i % n)
  }

  lemma MulStep(a: int, b: int, n: int)
    requires 0 < n && a < b
    ensures a * n + n <= b * n
  {
    var d := b - a;
    assert b * n == a * n + d * n by { assert b == a + d; }
    assert d * n == (d - 1) * n + n;
    assert (d - 1) * n >= 0;
  }

  /** The remainder is the unique `r` in `0..n` with `i == q * n + r` for some `q`, as Python's floor division makes it for a positive divisor. */
  lemma ModUnique(i: int, n: nat, q: int, r: int)
    requires 0 < n && 0 <= r < n && i == q * n + r
    ensures Mod(i, n) == Ok(r)
  {
    var q', r' := i / n, i % n;
    assert i == q' * n + r';
    if q' < q {
      MulStep(q', q, n);
    } else if q' > q {
      MulStep(q, q', n);
    }
  }

  /** Stepping a cursor back from the first entry wraps to the last, and forward from the last wraps to the first. */
  lemma ModWraps(n: nat)
    requires 0 < n
    ensures Mod(-1, n) == Ok(n - 1) && Mod(n, n) == Ok(0)
  {
    ModUnique(-1, n, -1, n - 1);
    ModUnique(n, n, 1, 0);
  }

  /** Stepping a cursor back and then forward, or forward and then back, over a non-empty list returns it to where it was. */
  lemma ModStepsCancel(i: int, n: nat)
    requires 0 <= i < n
    ensures Mod(Mod(i - 1, n).value + 1, n) == Ok(i)
    ensures Mod(Mod(i + 1, n).value - 1, n) == Ok(i)
  {
    ModWraps(n);
  }

  // ---------------------------------------------------------------------------
  // Whitespace and str.strip()
  // ---------------------------------------------------------------------------

  /** The characters for which Python's `str.isspace()` holds; `str.strip()` removes exactly these. */
  predicate IsSpace(c: char) {
    var n := c as int;
    || (9 <= n <= 13) || (28 <= n <= 32) || n == 0x85 || n == 0xA0 || n == 0x1680
    || (0x2000 <= n <= 0x200A) || n == 0x2028 || n == 0x2029 || n == 0x202F
    || n == 0x205F || n == 0x3000
  }

  /** Every character is whitespace (the empty string included). */
  predicate IsBlank(s: string) {
    forall i :: 0 <= i < |s| ==> IsSpace(s[i])
  }

  /** One step of `lstrip()`: a whitespace character in front of the rest's blank prefix belongs to the blank prefix. */
  lemma BlankCons(s: string, r: string)
    requires |s| > 0 && IsSpace(s[0])
    requires |r| < |s| && r == s[1..][|s| - 1 - |r|..] && IsBlank(s[1..][..|s| - 1 - |r|])
    ensures r == s[|s| - |r|..] && IsBlank(s[..|s| - |r|])
  {
    var n := |s| - |r|;
    forall k | 0 <= k < n ensures IsSpace(s[..n][k]) {
      if k > 0 {
        assert s[..n][k] == s[1..][..n - 1][k - 1];
      }
    }
  }

  /** `s.lstrip()`: the suffix left after dropping leading whitespace. */
  function LStrip(s: string): (r: string)
    ensures |r| <= |s| && r == s[|s| - |r|..]
    ensures IsBlank(s[..|s| - |r|])
    ensures r == [] || !IsSpace(r[0])
  {
    if |s| > 0 && IsSpace(s[0]) then
      var r := LStrip(s[1..]);
      BlankCons(s, r);
      r
    else s
  }

  /** `s.rstrip()`: the prefix left after dropping trailing whitespace. */
  function RStrip(s: string): (r: string)
    ensures |r| <= |s| && r == s[..|r|]
    ensures IsBlank(s[|r|..])
    ensures r == [] || !IsSpace(r[|r| - 1])
  {
    if |s| > 0 && IsSpace(s[|s| - 1]) then RStrip(s[..|s| - 1]) else s
  }

  /** `s.strip()`. */
  function Strip(s: string): (r: string)
    ensures |r| <= |s|
    ensures r == [] <==> IsBlank(s)
    ensures r != [] ==> !IsSpace(r[0]) && !IsSpace(r[|r| - 1])
    ensures exists i, j :: 0 <= i <= j <= |s| && r == s[i..j] && IsBlank(s[..i]) && IsBlank(s[j..])
  {
    var l := LStrip(s);
    var r := RStrip(l);
    assert s == s[..|s| - |l|] + l;
    StripIsMiddle(s, l, r);
    if r == [] then
      assert l == l[..0] + l[0..] && IsBlank(l[0..]);
      r
    else
      r
  }

  /** A prefix of a suffix of `s`, with blanks cut off at both ends, is a middle slice of `s` between blanks. */
  lemma StripIsMiddle(s: string, l: string, r: string)
    requires |l| <= |s| && l == s[|s| - |l|..] && IsBlank(s[..|s| - |l|])
    requires |r| <= |l| && r == l[..|r|] && IsBlank(l[|r|..])
    ensures exists i, j :: 0 <= i <= j <= |s| && r == s[i..j] && IsBlank(s[..i]) && IsBlank(s[j..])
  {
    var i := |s| - |l|;
    var j := i + |r|;
    assert s[i..j] == r;
    assert s[j..] == l[|r|..];
  }

  // ---------------------------------------------------------------------------
  // Slicing with Python's index normalisation
  // ---------------------------------------------------------------------------

  /** Where a slice bound `i` lands in a sequence of length `n`: negative bounds count from the end, and both are clamped into `0..n`. */
  function PyIndex(i: int, n: nat): (k: nat)
    ensures k <= n
    ensures 0 <= i ==> k == (if i <= n then i else n)
    ensures i < 0 ==> k == (if -i <= n then n + i else 0)
  {
    if i < 0 then (if n + i < 0 then 0 else n + i) else if i > n then n else i
  }

  /** `s[:i]` */
  function Take<T>(s: seq<T>, i: int): (r: seq<T>)
    ensures r == s[..PyIndex(i, |s|)]
  {
    s[..PyIndex(i, |s|)]
  }

  /** `s[i:]` */
  function Drop<T>(s: seq<T>, i: int): (r: seq<T>)
    ensures r == s[PyIndex(i, |s|)..]
  {
    s[PyIndex(i, |s|)..]
  }

  /** `s[i:j]`; empty when the normalised bounds cross. */
  function Slice<T>(s: seq<T>, i: int, j: int): (r: seq<T>)
    ensures |r| <= |s|
  {
    var lo := PyIndex(i, |s|);
    var hi := PyIndex(j, |s|);
    if lo <= hi then s[lo..hi] else []
  }

  /** `s[-k:]` for `k >= 0`: the last `k` elements, or all of them when there are fewer; `s[-0:]` is all of `s`. */
  function Last<T>(s: seq<T>, k: nat): (r: seq<T>)
    ensures k == 0 ==> r == s
    ensures 0 < k ==> |r| == (if k <= |s| then k else |s|)
    ensures r == s[|s| - |r|..]
  {
    Drop(s, -(k as int))
  }

  /** `s[i]` with Python's negative indexing, or `IndexError`. */
  function At<T>(s: seq<T>, i: int): (r: Option<T>)
    ensures 0 <= i < |s| ==> r == Some(s[i])
    ensures -|s| <= i < 0 ==> r == Some(s[|s| + i])
    ensures r.None? <==> !(-|s| <= i < |s|)
  {
    if 0 <= i < |s| then Some(s[i]) else if -|s| <= i < 0 then Some(s[|s| + i]) else None
  }

  // ---------------------------------------------------------------------------
  // Strings built from pieces
  // ---------------------------------------------------------------------------

  /** `c * n` for a one-character string: `n <= 0` gives the empty string. */
  function Repeat(c: char, n: int): (r: string)
    ensures |r| == (if n <= 0 then 0 else n)
    ensures forall i :: 0 <= i < |r| ==> r[i] == c
    decreases n
  {
    if n <= 0 then [] else [c] + Repeat(c, n - 1)
  }

  /** `sep.join(parts)` for a one-character separator. */
  function Join(sep: char, parts: seq<string>): (r: string)
  {
    if |parts| == 0 then []
    else if |parts| == 1 then parts[0]
    else parts[0] + [sep] + Join(sep, parts[1..])
  }

  /** How many times `c` occurs in `s`. */
  function CountOf(s: string, c: char): (n: nat)
    ensures n <= |s|
    ensures n == 0 <==> c !in s
  {
    if s == [] then 0 else (if s[0] == c then 1 else 0) + CountOf(s[1..], c)
  }

  lemma {:induction false} CountOfAppend(a: string, b: string, c: char)
    ensures CountOf(a + b, c) == CountOf(a, c) + CountOf(b, c)
  {
    if a == [] {
      assert a + b == b;
    } else {
      assert (a + b)[1..] == a[1..] + b;
      CountOfAppend(a[1..], b, c);
    }
  }

  /** Index of the first occurrence of `c` in `s`, if any. */
  function FindFirst<T(==)>(s: seq<T>, c: T): (r: Option<nat>)
    ensures r.None? <==> c !in s
    ensures r.Some? ==> r.value < |s| && s[r.value] == c && c !in s[..r.value]
  {
    if s == [] then None
    else if s[0] == c then Some(0)
    else match FindFirst(s[1..], c)
      case None => None
      case Some(k) =>
        assert s[..k + 1] == [s[0]] + s[1..][..k];
        Some(k + 1)
  }

  /**
   `base, quote = s.split(sep)`: succeeds exactly when `sep` occurs once in `s`,
   and otherwise raises `ValueError` (too many or too few values to unpack).
   */
  function SplitPair(s: string, sep: char): (r: Option<(string, string)>)
    ensures r.Some? <==> CountOf(s, sep) == 1
    ensures r.Some? ==> s == r.value.0 + [sep] + r.value.1
    ensures r.Some? ==> sep !in r.value.0 && sep !in r.value.1
  {
    match FindFirst(s, sep)
    case None => None
    case Some(k) =>
      var before, after := s[..k], s[k + 1..];
      assert s == before + [sep] + after;
      CountOfAppend(before + [sep], after, sep);
      CountOfAppend(before, [sep], sep);
      if sep in after then None else Some((before, after))
  }

  /** Splitting `a + sep + b` gives back `a` and `b` when neither contains `sep`. */
  lemma SplitPairOfJoined(a: string, b: string, sep: char)
    requires sep !in a && sep !in b
    ensures SplitPair(a + [sep] + b, sep) == Some((a, b))
  {
    var s := a + [sep] + b;
    CountOfAppend(a + [sep], b, sep);
    CountOfAppend(a, [sep], sep);
    assert s[|a|] == sep && s[..|a|] == a && s[|a| + 1..] == b;
    assert sep in s[..|a| + 1];
    assert FindFirst(s, sep) == Some(|a|);
  }

  // ---------------------------------------------------------------------------
  // list.remove
  // ---------------------------------------------------------------------------

  /** `xs.remove(x)` with its `ValueError` swallowed: the first element equal to `x` goes, or nothing changes. */
  function RemoveFirst<T(==)>(xs: seq<T>, x: T): (r: seq<T>)
    ensures x !in xs ==> r == xs
    ensures x in xs ==> exists i :: 0 <= i < |xs| && xs[i] == x && x !in xs[..i] && r == xs[..i] + xs[i + 1..]
    ensures x in xs ==> |r| == |xs| - 1
    ensures multiset(r) == multiset(xs) - multiset{x}
  {
    match FindFirst(xs, x)
    case None => xs
    case Some(i) =>
      assert xs == xs[..i] + [x] + xs[i + 1..];
      xs[..i] + xs[i + 1..]
  }

  /** Removing an element just appended that was not there before restores the list. */
  lemma RemoveFirstOfAppended<T>(xs: seq<T>, x: T)
    requires x !in xs
    ensures RemoveFirst(xs + [x], x) == xs
  {
    var ys := xs + [x];
    assert ys[|xs|] == x && ys[..|xs|] == xs;
  }
}

=== FILE: snapshot.dfy ===
/**
 The saved snapshot of the session: which fields saving writes and which fields
 loading takes back. The JSON encoding and the file itself are not modelled; a
 saved document is a record of optional fields, and reading the file either
 finds no file, fails, or yields such a record.
 */
module Snapshot {
  import opened Py
  import opened Ledger

  /** A ticker as the exchange reports it; its contents are only carried along. */
  datatype Ticker = Ticker(last: real, percentage: Option<real>)

  /** The part of the session that is saved. `pnl` may be `None`, which JSON writes as null. */
  datatype State = State(symbols: seq<string>, balance: Balance, orders: seq<Order>,
                         tickers: map<string, Ticker>, pnl: Option<real>, lastUpdate: string)

  /** A document field checked with `isinstance` on loading: absent, of the expected type, or of some other type. */
  datatype Slot<T> = Missing | Typed(value: T) | Mistyped

  /**
   A saved document. `tickers` is `None` when the field is absent or falsy; `pnl`
   and `lastUpdate` are `None` when absent, and `pnl` may hold null.
   */
  datatype Doc = Doc(symbols: Slot<seq<string>>, balance: Slot<Balance>, orders: Slot<seq<Order>>,
                     tickers: Option<map<string, Ticker>>, pnl: Option<Option<real>>, lastUpdate: Option<string>)

  /** What reading the data file gives. */
  datatype Stored = NoFile | Unreadable | Parsed(doc: Doc)

  /** The status line loading leaves. */
  datatype LoadStatus = NoSavedData | LoadedOk | LoadFailed

  /** `save_data`: every field is written except empty collections, an empty time stamp and a `None` result. */
  function SaveData(s: State): (d: Doc)
    ensures d.symbols == (if s.symbols == [] then Missing else Typed(s.symbols))
    ensures d.balance == (if s.balance == map[] then Missing else Typed(s.balance))
    ensures d.orders == (if s.orders == [] then Missing else Typed(s.orders))
    ensures d.tickers == (if s.tickers == map[] then None else Some(s.tickers))
    ensures d.pnl == (if s.pnl.None? then None else Some(s.pnl))
    ensures d.lastUpdate == (if s.lastUpdate == [] then None else Some(s.lastUpdate))
  {
    Doc(if |s.symbols| > 0 then Typed(s.symbols) else Missing,
        if |s.balance| > 0 then Typed(s.balance) else Missing,
        if |s.orders| > 0 then Typed(s.orders) else Missing,
        if |s.tickers| > 0 then Some(s.tickers) else None,
        if s.pnl != None then Some(s.pnl) else None,
        if |s.lastUpdate| > 0 then Some(s.lastUpdate) else None)
  }

  /** A checked field: taken when it has the expected type, otherwise the current value stays. */
  function Pick<T>(slot: Slot<T>, current: T): (r: T)
    ensures slot.Typed? ==> r == slot.value
    ensures !slot.Typed? ==> r == current
  {
    match slot
    case Typed(v) => v
    case _ => current
  }

  /** A field read with a default: the stored value when present, otherwise the current value. */
  function OrKeep<T>(field: Option<T>, current: T): (r: T)
    ensures field.Some? ==> r == field.value
    ensures field.None? ==> r == current
  {
    match field
    case Some(v) => v
    case None => current
  }

  /**
   `load_data` on the session `s`: without a file, or when reading fails, nothing
   changes. Otherwise symbols, balance and orders are taken when they have the
   right type, the tickers are always replaced (by an empty map when absent),
   and the result and time stamp are taken when present.
   */
  function LoadData(stored: Stored, s: State): (r: (State, LoadStatus))
    ensures stored == NoFile ==> r == (s, NoSavedData)
    ensures stored == Unreadable ==> r == (s, LoadFailed)
    ensures stored.Parsed? ==> r.1 == LoadedOk
    ensures stored.Parsed? && stored.doc.tickers.None? ==> r.0.tickers == map[]
    ensures stored.Parsed? && stored.doc.symbols.Typed? ==> r.0.symbols == stored.doc.symbols.value
    ensures stored.Parsed? && !stored.doc.symbols.Typed? ==> r.0.symbols == s.symbols
    ensures stored.Parsed? && stored.doc.balance.Typed? ==> r.0.balance == stored.doc.balance.value
    ensures stored.Parsed? && !stored.doc.balance.Typed? ==> r.0.balance == s.balance
    ensures stored.Parsed? && stored.doc.orders.Typed? ==> r.0.orders == stored.doc.orders.value
    ensures stored.Parsed? && !stored.doc.orders.Typed? ==> r.0.orders == s.orders
    ensures stored.Parsed? && stored.doc.tickers.Some? ==> r.0.tickers == stored.doc.tickers.value
    ensures stored.Parsed? && stored.doc.pnl.Some? ==> r.0.pnl == stored.doc.pnl.value
    ensures stored.Parsed? && stored.doc.pnl.None? ==> r.0.pnl == s.pnl
    ensures stored.Parsed? && stored.doc.lastUpdate.Some? ==> r.0.lastUpdate == stored.doc.lastUpdate.value
    ensures stored.Parsed? && stored.doc.lastUpdate.None? ==> r.0.lastUpdate == s.lastUpdate
  {
    match stored
    case NoFile => (s, NoSavedData)
    case Unreadable => (s, LoadFailed)
    case Parsed(d) =>
      (State(Pick(d.symbols, s.symbols), Pick(d.balance, s.balance), Pick(d.orders, s.orders),
             OrKeep(d.tickers, map[]), OrKeep(d.pnl, s.pnl), OrKeep(d.lastUpdate, s.lastUpdate)),
       LoadedOk)
  }

  /**
   Saving `s` and loading the document into a session `base` gives back exactly
   `s` if and only if every field that saving leaves out (being empty or `None`)
   is already empty or `None` in `base`.
   */
  lemma SaveLoadRoundTrip(s: State, base: State)
    ensures LoadData(Parsed(SaveData(s)), base).0 == s <==>
              && (s.symbols == [] ==> base.symbols == [])
              && (s.balance == map[] ==> base.balance == map[])
              && (s.orders == [] ==> base.orders == [])
              && (s.pnl.None? ==> base.pnl.None?)
              && (s.lastUpdate == [] ==> base.lastUpdate == [])
  {
  }

  /**
   An emptied watch list does not survive a restart: loading the saved document
   into a session that starts with the default symbols gives those symbols back.
   */
  lemma EmptyListNotRestored(s: State, base: State)
    requires s.symbols == [] && base.symbols == DefaultSymbols
    ensures LoadData(Parsed(SaveData(s)), base).0.symbols == DefaultSymbols
    ensures LoadData(Parsed(SaveData(s)), base).0 != s
  {
  }

  /** Loading always replaces the tickers: those held before are gone when the document has none. */
  lemma LoadReplacesTickers(d: Doc, s: State)
    requires d.tickers.None?
    ensures LoadData(Parsed(d), s).0.tickers == map[]
  {
  }

  /** Saving what a load produced, then loading that into the same session, changes nothing more: the second load is idempotent. */
  lemma ReloadIsStable(d: Doc, s: State)
    ensures var once := LoadData(Parsed(d), s).0;
            LoadData(Parsed(SaveData(once)), once).0 == once
  {
    var once := LoadData(Parsed(d), s).0;
    SaveLoadRoundTrip(once, once);
  }
}

=== FILE: watchlist.dfy ===
/**
 The symbols screen: the watch list with its selection, the five-entry main
 menu, adding and deleting a coin, and opening the full-screen chart from the
 list. Saving to disk after a change is not modelled.
 */
module Watchlist {
  import opened Py
  import opened Ledger
  import opened Chart
  import PlotCache
  import CandleWindow

  /** The state the symbols screen works on. */
  datatype App = App(symbols: seq<string>, current: int, book: Book, cache: PlotCache.Cache)

  /** The main menu's entries, in their order on screen. */
  datatype Action = Update | Trading | AddCoin | DeleteCoin | Cancel

  const Actions: seq<Action> := [Update, Trading, AddCoin, DeleteCoin, Cancel]

  /** The keys the list and the menu react to. */
  datatype Key = Up | Down | Enter | Other

  /**
   Up or Down on the list (`step` is -1 or +1): the selection moves cyclically
   and the whole chart cache is cleared. An empty list raises `ZeroDivisionError`.
   */
  function MoveSelection(app: App, step: int): (r: Result<App>)
    ensures r.Err? <==> app.symbols == []
    ensures r.Err? ==> r.error == ZeroDivisionError
    ensures r.Ok? ==> 0 <= r.value.current < |app.symbols| && r.value.cache == map[]
    ensures r.Ok? ==> r.value.symbols == app.symbols && r.value.book == app.book
    ensures r.Ok? ==> r.value.current == Mod(app.current + step, |app.symbols|).value
  {
    match Mod(app.current + step, |app.symbols|)
    case Err(e) => Err(e)
    case Ok(i) => Ok(app.(current := i, cache := PlotCache.Clear(app.cache)))
  }

  /** Add a coin: a non-empty name is appended (no balance entry is made for it); an empty one is ignored. */
  function AddSymbol(app: App, name: string): (r: App)
    ensures name == [] ==> r == app
    ensures name != [] ==> r.symbols == app.symbols + [name]
    ensures r.current == app.current && r.book == app.book && r.cache == app.cache
  {
    if name != [] then app.(symbols := app.symbols + [name]) else app
  }

  /**
   Delete the selected coin: the first occurrence of the selected name is removed,
   and the selection, balances and cache stay as they are. A selection outside
   the list raises `IndexError`.
   */
  function DeleteSymbol(app: App): (r: Result<App>)
    ensures r.Err? <==> At(app.symbols, app.current).None?
    ensures r.Err? ==> r.error == IndexError
    ensures r.Ok? ==> |r.value.symbols| == |app.symbols| - 1
    ensures r.Ok? ==> multiset(r.value.symbols) == multiset(app.symbols) - multiset{At(app.symbols, app.current).value}
    ensures r.Ok? ==> r.value.symbols == RemoveFirst(app.symbols, At(app.symbols, app.current).value)
    ensures r.Ok? ==> r.value.current == app.current && r.value.book == app.book && r.value.cache == app.cache
  {
    match At(app.symbols, app.current)
    case None => Err(IndexError)
    case Some(s) => Ok(app.(symbols := RemoveFirst(app.symbols, s)))
  }

  /** After a key in the main menu: the highlighted entry, the chosen action, or the error Python raises. */
  datatype MenuOutcome = Highlight(index: int) | Chosen(action: Action) | MenuError(error: PyError)

  /** One key in the main menu with entry `h` highlighted: Up and Down move the highlight cyclically, Enter chooses the entry. */
  function MenuStep(h: int, key: Key): (r: MenuOutcome)
    ensures key == Up || key == Down ==> r.Highlight? && 0 <= r.index < |Actions|
    ensures key == Up ==> r == Highlight(Mod(h - 1, |Actions|).value)
    ensures key == Down ==> r == Highlight(Mod(h + 1, |Actions|).value)
    ensures key == Enter && 0 <= h < |Actions| ==> r == Chosen(Actions[h])
    ensures key == Other ==> r == Highlight(h)
    ensures key == Enter && -|Actions| <= h < 0 ==> r == Chosen(Actions[|Actions| + h])
    ensures r.MenuError? <==> key == Enter && !(-|Actions| <= h < |Actions|)
  {
    match key
    case Up => Highlight(Mod(h - 1, |Actions|).value)
    case Down => Highlight(Mod(h + 1, |Actions|).value)
    case Enter =>
      (match At(Actions, h)
       case None => MenuError(IndexError)
       case Some(a) => Chosen(a))
    case Other => Highlight(h)
  }

  /** Rows of the full-screen chart in a terminal `maxH` rows high: three are kept for the header and the status, and at least six are drawn. */
  function FullscreenHeight(maxH: int): (r: int)
    ensures r >= 6 && r >= maxH - 3 && (r == 6 || r == maxH - 3)
  {
    if maxH - 3 > 6 then maxH - 3 else 6
  }

  /** Columns of the full-screen chart in a terminal `maxW` columns wide, at least twenty. */
  function FullscreenWidth(maxW: int): (r: int)
    ensures r >= 20 && r >= maxW - 3 && (r == 20 || r == maxW - 3)
  {
    if maxW - 3 > 20 then maxW - 3 else 20
  }

  /**
   The full-screen chart opened from the list, up to its first frame and then
   closed: the candles shown are the fetched ones when there are any, else those
   loaded from disk, trimmed to the full-screen count. The chart pops the 2-tuple
   key `(symbol, True)` when it opens, builds its rows in exact mode for the
   terminal's size (which stores them under the 4-tuple key unless a fresh entry is
   there), and the list pops `(symbol, False)` and `(symbol, True)` when it closes.
   The result is the shown candles, the chart rows and the session afterwards.
   */
  function OpenFullscreen(app: App, loaded: seq<Candle>, fetched: seq<Candle>, now: real,
                          plotext: PlotCache.Plotext, fmt: int -> string, maxH: int, maxW: int): (r: Result<(seq<Candle>, seq<string>, App)>)
    ensures r.Err? <==> At(app.symbols, app.current).None?
    ensures r.Err? ==> r.error == IndexError
    ensures r.Ok? ==> r.value.0 == CandleWindow.FullscreenSlice(CandleWindow.Prefer(fetched, loaded, CandleWindow.FullscreenCandles))
    ensures r.Ok? ==> |r.value.0| <= CandleWindow.FullscreenCandles
    ensures r.Ok? ==> r.value.2.symbols == app.symbols && r.value.2.current == app.current && r.value.2.book == app.book
    ensures r.Ok? ==> var s := At(app.symbols, app.current).value;
                      var key := PlotCache.Key4(s, true, FullscreenHeight(maxH), FullscreenWidth(maxW));
                      && r.value.2.cache.Keys == (app.cache.Keys + {key}) - {PlotCache.Key2(s, false), PlotCache.Key2(s, true)}
                      && (forall k :: k in r.value.2.cache && k != key ==> r.value.2.cache[k] == app.cache[k])
                      && r.value.2.cache[key].lines == r.value.1
                      && (PlotCache.Fresh(app.cache, key, now) ==> r.value.2.cache[key] == app.cache[key])
                      && (!PlotCache.Fresh(app.cache, key, now) ==> r.value.2.cache[key].ts == now)
                      && (!PlotCache.Fresh(app.cache, key, now) && plotext.Installed? ==>
                            r.value.1 == ChartRows(r.value.0, FullscreenHeight(maxH), FullscreenWidth(maxW), true, plotext.raster, fmt))
  {
    match At(app.symbols, app.current)
    case None => Err(IndexError)
    case Some(s) =>
      var shown := CandleWindow.FullscreenSlice(CandleWindow.Prefer(fetched, loaded, CandleWindow.FullscreenCandles));
      var popped := PlotCache.Pop(app.cache, PlotCache.Key2(s, true));
      var built := PlotCache.BuildPlotLines(popped, now, plotext, fmt, s, shown, FullscreenHeight(maxH), FullscreenWidth(maxW), true);
      Ok((shown, built.0, app.(cache := PlotCache.PopPairs(built.1, s))))
  }

  // ---------------------------------------------------------------------------
  // Properties
  // ---------------------------------------------------------------------------

  /** From any highlighted entry, no run of keys makes the main menu raise: the highlight always stays on an entry. */
  lemma {:induction false} MenuNeverRaises(h: int, keys: seq<Key>)
    requires 0 <= h < |Actions|
    ensures forall i :: 0 <= i < |keys| ==> !MenuStep(MenuHighlight(h, keys[..i]), keys[i]).MenuError?
    ensures 0 <= MenuHighlight(h, keys) < |Actions|
    decreases |keys|
  {
    if keys != [] {
      var h1 := MenuHighlight(h, [keys[0]]);
      assert [keys[0]][1..] == [];
      assert h1 == MenuHighlight(NextHighlight(h, keys[0]), []);
      MenuNeverRaises(h1, keys[1..]);
      forall i | 0 <= i < |keys|
        ensures !MenuStep(MenuHighlight(h, keys[..i]), keys[i]).MenuError?
      {
        if i > 0 {
          assert keys[..i] == [keys[0]] + keys[1..][..i - 1];
          MenuHighlightAppend(h, [keys[0]], keys[1..][..i - 1]);
          assert MenuHighlight(h, keys[..i]) == MenuHighlight(h1, keys[1..][..i - 1]);
          assert keys[i] == keys[1..][i - 1];
        }
      }
      assert keys == [keys[0]] + keys[1..];
      MenuHighlightAppend(h, [keys[0]], keys[1..]);
    }
  }

  /** Where the highlight ends after a run of keys that chooses nothing (an Enter leaves it in place). */
  function MenuHighlight(h: int, keys: seq<Key>): int
    decreases |keys|
  {
    if keys == [] then h else MenuHighlight(NextHighlight(h, keys[0]), keys[1..])
  }

  /** The highlight after one key; a key that chooses leaves it in place. */
  function NextHighlight(h: int, key: Key): (r: int)
    ensures 0 <= h < |Actions| ==> 0 <= r < |Actions|
  {
    match MenuStep(h, key) case Highlight(i) => i case _ => h
  }

  lemma {:induction false} MenuHighlightAppend(h: int, a: seq<Key>, b: seq<Key>)
    ensures MenuHighlight(h, a + b) == MenuHighlight(MenuHighlight(h, a), b)
    decreases |a|
  {
    if a == [] {
      assert a + b == b;
    } else {
      assert (a + b)[0] == a[0] && (a + b)[1..] == a[1..] + b;
      MenuHighlightAppend(NextHighlight(h, a[0]), a[1..], b);
    }
  }

  /** Up then Down on the list puts the selection back, and clears the chart cache. */
  lemma SelectUpDownCancel(app: App)
    requires 0 <= app.current < |app.symbols|
    ensures var up := MoveSelection(app, -1);
            up.Ok? && MoveSelection(up.value, 1) == Ok(app.(cache := map[]))
  {
    ModStepsCancel(app.current, |app.symbols|);
  }

  /**
   Adding a new coin, pressing Up from the first entry (which wraps to the new,
   last, entry) and deleting the selection gives back the list and the ledger.
   */
  lemma AddSelectDeleteRestores(app: App, name: string)
    requires name != [] && name !in app.symbols && app.current == 0
    ensures var added := AddSymbol(app, name);
            var moved := MoveSelection(added, -1);
            && moved.Ok? && moved.value.current == |app.symbols|
            && DeleteSymbol(moved.value).Ok?
            && DeleteSymbol(moved.value).value.symbols == app.symbols
            && DeleteSymbol(moved.value).value.book == app.book
  {
    var added := AddSymbol(app, name);
    ModWraps(|added.symbols|);
    RemoveFirstOfAppended(app.symbols, name);
  }

  /** Deleting the last entry while it is selected leaves the selection past the end, so a second delete raises `IndexError`. */
  lemma DeleteLastLeavesSelectionPastEnd(app: App)
    requires app.symbols != [] && app.current == |app.symbols| - 1
    ensures var once := DeleteSymbol(app);
            once.Ok? && once.value.current == |once.value.symbols| && DeleteSymbol(once.value) == Err(IndexError)
  {
  }

  /** With the same name listed twice, deleting the later selected entry removes the earlier one. */
  lemma DeleteRemovesFirstOccurrence(app: App, a: string, b: string)
    requires a != b && app.symbols == [a, b, a] && app.current == 2
    ensures DeleteSymbol(app) == Ok(app.(symbols := [b, a]))
  {
    assert FindFirst(app.symbols, a) == Some(0);
    assert app.symbols[..0] + app.symbols[1..] == [b, a];
  }

  /**
   The full-screen chart shows the last 16 fetched candles, or when the fetch
   failed the last 16 loaded ones. On a cache the builder filled, the pops around
   it do nothing, so opening the chart leaves the session exactly as one build of
   the exact chart for the terminal's size leaves it.
   */
  lemma OpenFullscreenShowsLatest(app: App, loaded: seq<Candle>, fetched: seq<Candle>, now: real,
                                  plotext: PlotCache.Plotext, fmt: int -> string, maxH: int, maxW: int)
    requires PlotCache.WellKeyed(app.cache) && At(app.symbols, app.current).Some?
    ensures var r := OpenFullscreen(app, loaded, fetched, now, plotext, fmt, maxH, maxW);
            var shown := Last(if fetched != [] then fetched else loaded, CandleWindow.FullscreenCandles);
            var s := At(app.symbols, app.current).value;
            var built := PlotCache.BuildPlotLines(app.cache, now, plotext, fmt, s, shown, FullscreenHeight(maxH), FullscreenWidth(maxW), true);
            && r.Ok?
            && r.value.0 == shown
            && r.value == (shown, built.0, app.(cache := built.1))
            && PlotCache.WellKeyed(r.value.2.cache)
  {
    var s := At(app.symbols, app.current).value;
    assert PlotCache.Pop(app.cache, PlotCache.Key2(s, true)) == app.cache;
    var k := CandleWindow.FullscreenCandles;
    var p := CandleWindow.Prefer(fetched, loaded, k);
    if fetched != [] {
      assert p == Last(fetched, k);
    } else if loaded == [] {
      assert Last(loaded, k) == [];
    }
    var shown := Last(if fetched != [] then fetched else loaded, k);
    var built := PlotCache.BuildPlotLines(app.cache, now, plotext, fmt, s, shown, FullscreenHeight(maxH), FullscreenWidth(maxW), true);
    PlotCache.BuildKeepsWellKeyed(app.cache, now, plotext, fmt, s, shown, FullscreenHeight(maxH), FullscreenWidth(maxW), true);
    PlotCache.PopPairsIsNoop(built.1, s);
  }
}
